=== FILE: README.md ===
# Blog front end — a Dafny model

This project models the client-side logic of a React blog front end. The front end talks to a remote
HTTP API. Every server reply is a parameter of the model: `Reply<T>` is `Ok(value)` or `Failed`.
The model has three parts.

- **The post store** (`BlogStore`, with its laws in `BlogLaws`). This is the client's in-memory
  copy of the post list.
  - A successful call patches the list: fetch and search replace it; create prepends; update
    replaces by id; delete filters by id; comment add and delete edit one post's `comments`.
  - A failed call throws a fixed message (`Result.Failure`) and leaves the list as it was.
  - The admin page keeps its own list with the same filter, in `AdminDashboardPage`.
- **The session** (`AuthStore`). The state is the signed-in user, the token held in durable
  storage, and the startup `loading` flag. Transitions: startup rehydration, login, register and
  logout.
- **The pages and the navigation bar** (`HomePage`, `DashboardPage`, `ProfilePage`,
  `PostDetailPage`, `CreatePostPage`, `EditPostPage`, `Navbar`):
  - the form guards (`Forms`, over JavaScript's `trim` in `JsText`);
  - the excerpt helper shared by three pages (`Excerpt`);
  - "my posts" filtering and the authorship and role checks (`Authorship`, `Entities.IsAdmin`);
  - what each handler sends, stores, shows and where it navigates.

Supporting modules:
- `Keyed` holds the generic sequence operations the store is built from: filter by key, keep by
  key, and patch by key. Each one is characterised by its multiset and pointwise contracts, with
  order-preservation lemmas.
- `QueryString` models how the home page reads `?search=` back out of a path. First the URL
  parser of the WHATWG URL Standard (section 4.4, basic URL parser) strips leading and trailing
  C0 controls and spaces and removes every tab and line break. Then the router cuts the hash at
  the first `#` and the query after the first `?`. Last comes the browser's `URLSearchParams`:
  split on `&`, cut at the first `=`, decode `+` and `%XX`.

Two more modelling choices:
- JavaScript string truthiness (`""` is falsy) is modelled explicitly. It decides `if (token)`,
  `if (!id)` and `if (searchQuery)`.
- A Dafny `char` stands for one UTF-16 code unit, which is what `length` and `substring` count.

## Model

| member | source | states |
|---|---|---|
| JsText.Trim | src/components/Navbar.tsx:48 | `trim()` yields the part of the text after its leading white space, everything after the result is white space, and the result neither starts nor ends with white space |
| JsText.TrimEmptyIffBlank | src/pages/CreatePost.tsx:26 | a trimmed field is empty exactly when every character of it is white space |
| JsText.HasTextIffNonBlank | src/components/Navbar.tsx:48 | the `trim()` guard passes exactly when some character is not white space |
| JsText.TrimIdempotent | src/pages/EditPost.tsx:46 | trimming an already trimmed text changes nothing |
| Keyed.Remove | src/contexts/BlogContext.tsx:115 | the filter keeps no element with the key and keeps every other element exactly as often as it occurred |
| Keyed.Keep | src/pages/Dashboard.tsx:74 | the filter keeps only elements with the key, each as often as it occurred |
| Keyed.Patch | src/contexts/BlogContext.tsx:101-103 | the map keeps length and positions, transforms exactly the elements with the key and leaves the rest equal |
| Keyed.RemoveInOrder | src/contexts/BlogContext.tsx:115 | the survivors of the filter keep their relative order |
| Keyed.KeepInOrder | src/pages/Dashboard.tsx:74 | the kept elements keep their relative order |
| Keyed.RemoveAbsent | src/contexts/BlogContext.tsx:115 | filtering out a key no element has leaves the sequence equal |
| Keyed.RemoveAppended | src/contexts/BlogContext.tsx:115 | an element appended at the end disappears when its own key is filtered out |
| Keyed.RemoveIdempotent | src/contexts/BlogContext.tsx:115 | filtering the same key twice is filtering it once |
| Keyed.PatchAbsent | src/contexts/BlogContext.tsx:101-103 | mapping over a key no element has leaves the sequence equal |
| Keyed.RemoveAfterPatch | src/contexts/BlogContext.tsx:101-115 | filtering a key out after patching it, with a change that keeps the key, equals filtering it out directly |
| Keyed.RemoveKeepsDistinct | src/contexts/BlogContext.tsx:115 | filtering keeps keys pairwise distinct |
| Entities.CommentsOrEmpty | src/contexts/BlogContext.tsx:150 | the comment list, or the empty list when it is absent |
| BlogStore.Initial | src/contexts/BlogContext.tsx:57-58 | the store starts with no posts and not loading |
| BlogStore.AuthHeader | src/contexts/BlogContext.tsx:60-63 | a `Bearer ` header is sent exactly when a non-empty token is stored |
| BlogStore.AuthHeaderCarriesToken | src/contexts/BlogContext.tsx:62 | the header carries the stored token unchanged after `Bearer ` |
| BlogStore.FetchPosts | src/contexts/BlogContext.tsx:65-75 | success makes the list exactly the server's; failure throws "Failed to fetch posts" and keeps the list; `loading` ends false on both paths |
| BlogStore.CreatePost | src/contexts/BlogContext.tsx:77-90 | success puts the created post in front, followed by the old list unchanged; failure throws "Failed to create post" and changes nothing |
| BlogStore.UpdatePost | src/contexts/BlogContext.tsx:92-107 | success keeps length and positions, replaces every entry with the id by the reply and leaves all others equal; an absent id leaves the list equal; failure changes nothing |
| BlogStore.DeletePost | src/contexts/BlogContext.tsx:109-119 | success leaves no entry with the id and keeps every other entry as often as it occurred; failure throws "Failed to delete post" and changes nothing |
| BlogStore.GetPost | src/contexts/BlogContext.tsx:121-128 | the store never changes; the call resolves to the server's post or throws "Failed to fetch post" |
| BlogStore.SearchPosts | src/contexts/BlogContext.tsx:130-138 | success stores the results and returns exactly what it stored; failure throws "Failed to search posts" and changes nothing |
| BlogStore.AddComment | src/contexts/BlogContext.tsx:140-156 | the matching post's comments become its old comments (or none) plus the new one; every other post is unchanged; an unloaded post id changes nothing |
| BlogStore.DeleteComment | src/contexts/BlogContext.tsx:158-175 | only the matching post changes, and only in its comments: the id is gone and an absent list stays absent; an unloaded post id changes nothing |
| BlogLaws.DeleteKeepsOrder | src/contexts/BlogContext.tsx:115 | a delete keeps the remaining posts in their relative order |
| BlogLaws.DeleteAbsentIsNoOp | src/contexts/BlogContext.tsx:115 | deleting an id that is not loaded leaves the store equal |
| BlogLaws.DeleteIdempotent | src/contexts/BlogContext.tsx:115 | deleting the same id twice is deleting it once |
| BlogLaws.DeleteUndoesCreate | src/contexts/BlogContext.tsx:86-115 | deleting a freshly created post, whose id was not loaded, restores the store |
| BlogLaws.UpdateIdempotent | src/contexts/BlogContext.tsx:101-103 | applying the same update reply twice is applying it once |
| BlogLaws.DeleteAfterUpdate | src/contexts/BlogContext.tsx:101-115 | deleting an id after updating it with a reply of the same id is deleting it |
| BlogLaws.DeleteCommentUndoesAddComment | src/contexts/BlogContext.tsx:148-171 | deleting the comment just added restores the store, when every matching post had a comment list without that comment id |
| BlogLaws.DeleteCommentKeepsOtherComments | src/contexts/BlogContext.tsx:164-171 | in the matching post, exactly the comments with other ids survive, in order and as often as they occurred |
| BlogLaws.CreateKeepsIdsUnique | src/contexts/BlogContext.tsx:86 | creating a post with a new id keeps post ids unique |
| BlogLaws.UpdateKeepsIdsUnique | src/contexts/BlogContext.tsx:101-103 | an update whose reply keeps the id keeps post ids unique |
| BlogLaws.DeleteKeepsIdsUnique | src/contexts/BlogContext.tsx:115 | a delete keeps post ids unique |
| BlogLaws.CommentOpsKeepIds | src/contexts/BlogContext.tsx:148-171 | adding or deleting a comment leaves every post's id and position in place |
| AuthStore.Initial | src/contexts/AuthContext.tsx:37-38 | the session starts with nobody signed in and `loading` on |
| AuthStore.Rehydrate | src/contexts/AuthContext.tsx:40-59 | without a non-empty stored token nothing is asked; an accepted token signs the user in; a rejected one is removed and the user stays as before; `loading` ends false |
| AuthStore.SignIn | src/contexts/AuthContext.tsx:61-92 | success stores the returned token, sets the user and resolves to that same user; failure throws the given message and changes nothing |
| AuthStore.Login | src/contexts/AuthContext.tsx:61-75 | login success stores the token, signs the user in and returns them; failure throws "Login failed" and changes neither token nor user |
| AuthStore.Register | src/contexts/AuthContext.tsx:77-92 | registration success has the login effect; failure throws "Registration failed" and changes nothing |
| AuthStore.Logout | src/contexts/AuthContext.tsx:94-97 | logout removes the token and the user and leaves `loading` alone |
| AuthStore.RehydrationSettlesCredential | src/contexts/AuthContext.tsx:40-59 | after rehydration a user is signed in exactly when a usable token remains, exactly when a non-empty token was stored and accepted |
| AuthStore.OperationsKeepConsistent | src/contexts/AuthContext.tsx:61-97 | login, register and logout never leave a user signed in without a stored token |
| AuthStore.RegisterIsLogin | src/contexts/AuthContext.tsx:77-92 | a successful registration is indistinguishable from a successful login with the same reply |
| AuthStore.LogoutIdempotent | src/contexts/AuthContext.tsx:94-97 | logging out twice is logging out once |
| AuthStore.LogoutForgetsHistory | src/contexts/AuthContext.tsx:94-97 | the session after logout does not depend on the session before it |
| Excerpt.StripMarks | src/pages/Home.tsx:55 | no `#`, `*` or backtick is left, and every other character is kept as often as it occurred |
| Excerpt.StripMarksInOrder | src/pages/Home.tsx:55 | stripping keeps the remaining characters in the order the content has them |
| Excerpt.FlattenLines | src/pages/Home.tsx:55 | each line feed becomes a space in place and every other character stays |
| Excerpt.PlainText | src/pages/Home.tsx:55 | the plain text is no longer than the content and holds no markup character |
| Excerpt.Prefix | src/pages/Home.tsx:57 | `substring(0, n)` is the first `n` characters, or none for a negative `n` |
| Excerpt.GetExcerpt | src/pages/Home.tsx:54-59 | the excerpt holds no markup character and is at most `maxLength + 3` long; plain text that fits is returned whole, longer text is cut to `maxLength` characters followed by `...` |
| Excerpt.PlainTextIdempotent | src/pages/Home.tsx:55 | stripping and flattening plain text again changes nothing |
| Excerpt.NoMarksStripsToSelf | src/pages/Home.tsx:55 | text without marks is not changed by stripping |
| Excerpt.ShortPlainTextIsItsOwnExcerpt | src/pages/Home.tsx:56-58 | markup-free text within the limit is its own excerpt |
| Excerpt.ExcerptBounds | src/pages/Profile.tsx:65-70 | with the pages' defaults, profile excerpts are at most 103 characters and home and dashboard excerpts at most 153 |
| Forms.PostFormFilledIffNotBlank | src/pages/CreatePost.tsx:26-29 | the post form is refused exactly when the title or the content is white space only |
| Authorship.UserPosts | src/pages/Dashboard.tsx:74 | the user's posts are exactly the loaded posts they wrote, each as often as loaded; nobody signed in has none |
| Authorship.UserPostsInOrder | src/pages/Profile.tsx:72 | the user's posts keep their order in the list |
| Authorship.UserPostsMembership | src/pages/Dashboard.tsx:74 | a loaded post is listed exactly when the user is signed in and wrote it |
| Authorship.AuthorIffListedAsOwn | src/pages/PostDetail.tsx:101 | the detail page's author check agrees with the "my posts" filter: the viewer is a loaded post's author exactly when that post is among the viewer's own posts |
| HomePage.LoadPosts | src/pages/Home.tsx:27-44 | a non-empty `search` parameter searches for it and anything else fetches all posts; a failure keeps the list; the page stops loading either way |
| HomePage.ReadMoreTarget | src/pages/Home.tsx:122 | "Read more" goes to `/post/<id>` for a signed-in user and to `/login` otherwise |
| HomePage.PostRouteId | src/App.tsx:28 | a matched path is `/post/` followed by the non-empty, slash-free `:id`, and a path that is not matched has no such form |
| HomePage.ReadMoreOpensThatPost | src/pages/Home.tsx:122 | for a signed-in user "Read more" opens the detail page of exactly that post, when the id is a non-empty segment free of `/`, `?`, `#` and `%` |
| DashboardPage.View | src/pages/Dashboard.tsx:84-191 | create, edit and delete controls only for admins; the cards are the user's posts; the empty card shows exactly when there are none |
| DashboardPage.HandleDeletePost | src/pages/Dashboard.tsx:49-57 | nothing happens unless confirmed; a confirmed delete that succeeds leaves no post with the id; a failure shows "Failed to delete post" and keeps the list |
| ProfilePage.EmptyForm | src/pages/Profile.tsx:22-24 | the profile form starts with three empty fields |
| ProfilePage.Prefill | src/pages/Profile.tsx:31-37 | a signed-in user's name, email and bio fill the form, with a missing bio as the empty string; signed out, the form is kept |
| ProfilePage.Submit | src/pages/Profile.tsx:39-55 | the simulated save ends with no error, the success message and `loading` off, whatever was shown before |
| ProfilePage.Screen | src/pages/Profile.tsx:72-82 | signed out, only the log-in alert; signed in, the user and exactly their posts |
| ProfilePage.ProfileShowsOnlyOwnPosts | src/pages/Profile.tsx:72 | the profile never lists a post by someone else |
| PostDetailPage.Initial | src/pages/PostDetail.tsx:28-36 | the detail page starts with no post, loading, no gate, an empty comment box |
| PostDetailPage.Load | src/pages/PostDetail.tsx:38-57 | signed out, the login gate goes up, loading stops and nothing is fetched; without an id nothing is fetched; otherwise the post is read and the gate is down; success stores the post, a failure shows "Failed to load post", loading stops, and every other field (the comment box, the commenting flag, the other of post and error) keeps its value |
| PostDetailPage.CommentCount | src/pages/PostDetail.tsx:184 | the heading counts the comments, or zero when the list is absent |
| PostDetailPage.NoCommentsNoticeIffZeroCount | src/pages/PostDetail.tsx:246 | the "No comments yet" notice shows exactly when the heading counts zero |
| PostDetailPage.SubmitComment | src/pages/PostDetail.tsx:59-76 | a blank comment or a missing id sends nothing; otherwise the text is sent as typed, success clears the box and re-reads the post, any failure shows "Failed to add comment", and `commenting` ends false |
| PostDetailPage.DeleteComment | src/pages/PostDetail.tsx:78-89 | without an id nothing happens; otherwise delete and re-read the post, and a failure of either shows "Failed to delete comment" |
| CreatePostPage.Submit | src/pages/CreatePost.tsx:23-42 | a blank field shows "Please fill in all fields" and sends nothing; otherwise the untrimmed fields are sent, success goes to `/dashboard` with the post in front of an otherwise unchanged store, failure shows "Failed to create post" and keeps the store, `loading` ends false, and the typed fields are kept |
| EditPostPage.Initial | src/pages/EditPost.tsx:17-21 | the edit form starts with empty fields, loading and not saving |
| EditPostPage.Load | src/pages/EditPost.tsx:25-41 | without an id nothing changes; otherwise the fetched title and content fill the form or "Failed to load post" shows, and loading stops |
| EditPostPage.Submit | src/pages/EditPost.tsx:43-64 | validation first, then the id check, then the update; success goes to `/dashboard` with the banner cleared, failure shows "Failed to update post" and keeps the store, `saving` ends false, and the typed fields and `loading` are kept |
| EditPostPage.LoadThenSubmitSendsLoadedFields | src/pages/EditPost.tsx:25-64 | for a truthy id and a post whose title and content both hold more than white space, loading the post and submitting it unedited sends back its own title and content (with a blank title or content the guard sends nothing) |
| Navbar.Controls | src/components/Navbar.tsx:86-148 | signed out, only Login and Register; signed in, dashboard, account menu, profile and logout; the create button and the Admin Dashboard item exactly for admins |
| Navbar.SearchTarget | src/components/Navbar.tsx:46-51 | search navigates exactly when the box holds more than white space, to `/?search=` followed by the untrimmed text |
| Navbar.RawSearchTargetReadsBack | src/components/Navbar.tsx:49 | as written, the home page reads back the typed text without its trailing spaces and C0 controls and without its tabs and line breaks, cut at its first `#` and then at its first `&`, and decoded |
| Navbar.ReadBackOfAAmpersandB | src/components/Navbar.tsx:49 | the unencoded text `a&b` reads back as `a` |
| Navbar.SearchForAAmpersandBReadsA | src/components/Navbar.tsx:49 | typing `a&b` navigates, and the home page reads the search as `a` |
| Navbar.HomeSearchesForA | src/pages/Home.tsx:25-32 | after typing `a&b`, the home page asks the server to search for `a` |
| Navbar.EncodedSearchTarget | src/components/Navbar.tsx:46-51 | with the text encoded, search navigates under the same guard, and the home page reads back exactly the typed text |
| Navbar.EncodedSearchReachesHome | src/pages/Home.tsx:25-32 | with the text encoded, the home page searches for exactly the typed text |
| Navbar.HandleLogout | src/components/Navbar.tsx:40-44 | logging out from the bar clears user and token, closes the menu and goes to `/` |
| Navbar.LogoutShowsSignedOutBar | src/components/Navbar.tsx:86-148 | after logging out from the bar only Login and Register are offered |
| AdminDashboardPage.FetchAllPosts | src/pages/AdminDashboard.tsx:17-25 | the server's list replaces the local one; a header is sent exactly when a non-empty token is stored; a rejection keeps the list |
| AdminDashboardPage.DeletePost | src/pages/AdminDashboard.tsx:27-30 | success leaves no row with the id and keeps all others as often as they occurred; a rejection keeps the list |
| AdminDashboardPage.DeleteKeepsOrderAndIsIdempotent | src/pages/AdminDashboard.tsx:29 | the remaining rows keep their order, and deleting again changes nothing |
| QueryString.IndexOf | src/pages/Home.tsx:25 | the first position of the character, or the length when it does not occur |
| QueryString.Split | src/pages/Home.tsx:25 | splitting the query on `&` yields at least one piece and no piece holds `&` |
| QueryString.JoinSplit | src/pages/Home.tsx:25 | joining the pieces back with `&` gives the query back |
| QueryString.DropLeading | src/components/Navbar.tsx:49 | the result is the input without its leading C0 controls and spaces: all that is dropped is blank, and the result does not start with a blank |
| QueryString.DropTrailing | src/components/Navbar.tsx:49 | the result is the input without its trailing C0 controls and spaces: all that is dropped is blank, and the result does not end with a blank |
| QueryString.Parsed | src/components/Navbar.tsx:49 | the URL the parser yields is no longer than the path and holds no tab or line break |
| QueryString.DropTrailingAfter | src/components/Navbar.tsx:49 | after a part that does not end in a blank, only the rest loses its trailing blanks |
| QueryString.ParsedAfterPrefix | src/components/Navbar.tsx:49 | a prefix that starts and ends without a blank and holds no tab or line break passes the parser untouched |
| QueryString.QueryOfPair | src/pages/Home.tsx:25 | the query of `/?name=value` is the pair up to the value's first `#` |
| QueryString.HexChar | src/components/Navbar.tsx:49 | the digit written for `n` reads back as `n` |
| QueryString.Encode | src/components/Navbar.tsx:49 | an encoded value holds no `&`, `#`, `+`, space or C0 control; `%` is the only special character left |
| QueryString.EncodedPercentsEscape | src/components/Navbar.tsx:49 | every `%` in an encoded value starts a well-formed escape |
| QueryString.DecodeEncode | src/pages/Home.tsx:25 | decoding an encoded value gives back the value, for every string |
| QueryString.EncodedReadsBack | src/pages/Home.tsx:25 | an encoded value loses nothing to the parser, the hash or the `&` split, and decodes to the value |
| QueryString.ParamOfEncoded | src/pages/Home.tsx:25 | `search` read from `/?search=<encoded text>` is exactly the text, whatever characters it holds |
| QueryString.ParamOfRawValue | src/pages/Home.tsx:25 | `search` read from `/?search=<raw text>` is the text without its trailing spaces and C0 controls and without its tabs and line breaks, cut at its first `#` and then at its first `&`, and decoded |
| QueryString.ReadBackOfPlain | src/pages/Home.tsx:25 | raw text with no blank, `#`, `+` or `%` reads back as its part before the first `&` |

## Left out

- Requests: URLs, request bodies, the base URL and the network are not modelled. Each reply is an
  input. The URL in `searchPosts` (src/contexts/BlogContext.tsx:132) is not modelled either; it
  puts the query into the request URL unencoded.
- Storage is the session's `token` field only. The admin and store headers read it as an input.
- React is not modelled: rendering, the effects' lifecycle, the interleaving of concurrent async
  calls, and updates after unmount. The model runs one operation at a time.
- `formatDate` is left out, because it depends on locale date formatting.
- Markdown rendering and navigation by the router are left out. A navigation is a returned
  target path.
- The profile save's one-second wait is left out; only its end state is modelled.
- `window.confirm` is the boolean input `confirmed`.
- The route guards `ProtectedRoute` and `AdminRoute` (src/App.tsx:14-15) are not part of this
  model, because their source is not available.
- The dashboard's `loadUserPosts` effect does nothing between setting and clearing its loading
  flag, so only the post list and the handlers are modelled.
- `BlogStore.UpdatePost` replaces the whole entry with the server's reply, as the code does. It
  does not change only the title and the content.
- `QueryString.Decode` decodes `%XX` escapes only below 128. Multi-byte UTF-8 escapes are not
  modelled. The URL parser's own percent-encoding of the query (spaces, quotes, non-ASCII text)
  is left out too: `URLSearchParams` decodes those escapes back to the same characters.
- QueryString.Encode escapes only the characters the reader treats specially and the blanks the
  URL parser strips. `encodeURIComponent` escapes more characters; the extra ones decode back
  the same way.
- Strings are sequences of UTF-16 code units. Characters outside the Basic Multilingual Plane are
  not split into surrogate pairs.
- HomePage.PostRouteId: matches the whole path string literally. The router's own matching is
  not modelled: splitting the location into pathname, search and hash, an optional trailing
  slash, case-insensitive matching and percent-decoding of the parameter. So
  `HomePage.ReadMoreOpensThatPost` is stated only for ids without `?`, `#` or `%`.

## Findings

| source | as written | input that shows it | evidently intended | confidence | as-written member | corrected member |
|---|---|---|---|---|---|---|
| src/components/Navbar.tsx:49 | the typed search text goes into `/?search=` without encoding, and the home page reads it back with `URLSearchParams` (src/pages/Home.tsx:25), which splits at `&` | typing `a&b` searches for `a` (likewise `#` ends the query, `+` becomes a space, and trailing spaces are dropped) | encode the text, so the home page searches for exactly what was typed | not executed | Navbar.HomeSearchesForA | Navbar.EncodedSearchTarget |

Two other observations. Neither is a defect of the modelled logic:
- The dashboard's "Write Your First Post" button is shown to every user. It is not limited to
  admins, although the page it opens is.
- In `PostDetailPage.SubmitComment`, a failure of only the re-read after a successful add also
  shows "Failed to add comment", even though the comment was stored.

=== FILE: admin_dashboard.dfy ===
/** The admin dashboard keeps its own list of every post, outside the post store.
    Its calls have no error handling: a rejected request propagates before the list is set. */
module AdminDashboardPage {
  import opened Wrappers
  import opened Entities
  import BlogStore
  import Keyed

  /** The list afterwards, the Authorization header sent, and whether the call rejected. */
  datatype AdminStep = AdminStep(posts: seq<AdminPost>, authorization: Option<string>, rejected: bool)

  /** `fetchAllPosts`: the server's list replaces the local one. */
  function FetchAllPosts(posts: seq<AdminPost>, token: Option<string>, reply: Reply<seq<AdminPost>>): (r: AdminStep)
    ensures r.authorization == BlogStore.AuthHeader(token)
    ensures reply.Ok? ==> r.posts == reply.value && !r.rejected
    ensures reply.Failed? ==> r.posts == posts && r.rejected
  {
    match reply
    case Ok(ps) => AdminStep(ps, BlogStore.AuthHeader(token), false)
    case Failed => AdminStep(posts, BlogStore.AuthHeader(token), true)
  }

  /** `deletePost`: drop every row with the id, keep all others as often as they occurred;
      a rejection leaves the list as it was. */
  function DeletePost(posts: seq<AdminPost>, token: Option<string>, id: string, reply: Reply<()>): (r: AdminStep)
    ensures r.authorization == BlogStore.AuthHeader(token)
    ensures reply.Ok? ==> && !r.rejected
                          && (forall i :: 0 <= i < |r.posts| ==> r.posts[i].id != id)
                          && (forall p: AdminPost :: p.id != id ==> multiset(r.posts)[p] == multiset(posts)[p])
    ensures reply.Failed? ==> r.posts == posts && r.rejected
  {
    match reply
    case Ok(_) => AdminStep(Keyed.Remove(posts, AdminPostId, id), BlogStore.AuthHeader(token), false)
    case Failed => AdminStep(posts, BlogStore.AuthHeader(token), true)
  }

  /** A successful delete keeps the remaining rows in their order, and repeating it changes nothing. */
  lemma DeleteKeepsOrderAndIsIdempotent(posts: seq<AdminPost>, token: Option<string>, id: string)
    ensures var once := DeletePost(posts, token, id, Ok(())).posts;
            && Keyed.Subsequence(once, posts)
            && DeletePost(once, token, id, Ok(())).posts == once
  {
    Keyed.RemoveInOrder(posts, AdminPostId, id);
    Keyed.RemoveIdempotent(posts, AdminPostId, id);
  }
}

=== FILE: auth_store.dfy ===
/** The session store: who is signed in, the token kept in durable storage under the key
    `token`, and whether startup rehydration is still pending. Each HTTP reply is a parameter. */
module AuthStore {
  import opened Wrappers
  import opened Entities
  import opened JsText

  /** `user` and `loading` are the provider's state; `token` is what storage holds. */
  datatype Session = Session(user: Option<User>, token: Option<string>, loading: bool)

  /** The body of a successful login or registration: `{ token, user }`. */
  datatype AuthReply = AuthReply(token: string, user: User)

  /** A session operation's effect: the new session and the resolved user or thrown message. */
  datatype AuthStep = AuthStep(session: Session, result: Result<User>)

  const LoginError := "Login failed"
  const RegisterError := "Registration failed"

  /** The provider as mounted: nobody signed in, rehydration pending, storage as found. */
  function Initial(stored: Option<string>): (s: Session)
    ensures s.user.None? && s.loading && s.token == stored
  {
    Session(None, stored, true)
  }

  /** Startup rehydration. With a non-empty stored token the `/users/me` reply decides:
      a user signs the session in, a rejection removes the token. Without one, nothing is
      asked. Either way `loading` ends false. */
  function Rehydrate(s: Session, me: Reply<User>): (r: Session)
    ensures !r.loading
    ensures !(s.token.Some? && Truthy(s.token.value)) ==> r == s.(loading := false)
    ensures s.token.Some? && Truthy(s.token.value) && me.Ok? ==>
              r.user == Some(me.value) && r.token == s.token
    ensures s.token.Some? && Truthy(s.token.value) && me.Failed? ==>
              r.user == s.user && r.token.None?
  {
    if s.token.Some? && Truthy(s.token.value) then
      match me
      case Ok(u) => Session(Some(u), s.token, false)
      case Failed => Session(s.user, None, false)
    else
      s.(loading := false)
  }

  /** What login and registration share on success: store the token, set the user, return it. */
  function SignIn(s: Session, reply: Reply<AuthReply>, error: string): (r: AuthStep)
    ensures r.session.loading == s.loading
    ensures reply.Ok? ==> && r.session.token == Some(reply.value.token)
                          && r.session.user == Some(reply.value.user)
                          && r.result == Success(reply.value.user)
    ensures reply.Failed? ==> r.session == s && r.result == Failure(error)
  {
    match reply
    case Ok(a) => AuthStep(s.(user := Some(a.user), token := Some(a.token)), Success(a.user))
    case Failed => AuthStep(s, Failure(error))
  }

  /** `login`: on success the returned user is the one now signed in; on failure
      "Login failed" is thrown and neither token nor user changes. */
  function Login(s: Session, reply: Reply<AuthReply>): (r: AuthStep)
    ensures r.session.loading == s.loading
    ensures reply.Ok? ==> && r.session.token == Some(reply.value.token)
                          && r.session.user == Some(reply.value.user)
                          && r.result == Success(reply.value.user)
    ensures reply.Failed? ==> r.session == s && r.result == Failure(LoginError)
  {
    SignIn(s, reply, LoginError)
  }

  /** `register`: as `login`, against the registration endpoint, with "Registration failed". */
  function Register(s: Session, reply: Reply<AuthReply>): (r: AuthStep)
    ensures r.session.loading == s.loading
    ensures reply.Ok? ==> && r.session.token == Some(reply.value.token)
                          && r.session.user == Some(reply.value.user)
                          && r.result == Success(reply.value.user)
    ensures reply.Failed? ==> r.session == s && r.result == Failure(RegisterError)
  {
    SignIn(s, reply, RegisterError)
  }

  /** `logout`: remove the token and the user; `loading` is not touched. */
  function Logout(s: Session): (r: Session)
    ensures r.user.None? && r.token.None? && r.loading == s.loading
  {
    s.(user := None, token := None)
  }

  /** Nobody is signed in without a token in storage. */
  predicate Consistent(s: Session) {
    s.user.Some? ==> s.token.Some?
  }

  /** Rehydration from the mounted state ends with a user exactly when a usable
      (non-empty) token remains in storage: a rejected token does not survive. */
  lemma RehydrationSettlesCredential(stored: Option<string>, me: Reply<User>)
    ensures var r := Rehydrate(Initial(stored), me);
            && !r.loading
            && (r.user.Some? <==> (r.token.Some? && Truthy(r.token.value)))
            && (r.user.Some? <==> (stored.Some? && Truthy(stored.value) && me.Ok?))
  {
  }

  /** Login, registration and logout keep the session consistent from any state. */
  lemma OperationsKeepConsistent(s: Session, reply: Reply<AuthReply>)
    requires Consistent(s)
    ensures Consistent(Login(s, reply).session)
    ensures Consistent(Register(s, reply).session)
    ensures Consistent(Logout(s))
  {
  }

  /** A successful registration leaves the session exactly as a successful login with
      the same reply would; only the failure message differs. */
  lemma RegisterIsLogin(s: Session, reply: Reply<AuthReply>)
    ensures reply.Ok? ==> Register(s, reply) == Login(s, reply)
    ensures Register(s, reply).session == Login(s, reply).session
  {
  }

  /** Logging out twice is logging out once. */
  lemma LogoutIdempotent(s: Session)
    ensures Logout(Logout(s)) == Logout(s)
  {
  }

  /** After logout the session is the same whatever state it was reached from
      (up to the untouched rehydration flag). */
  lemma LogoutForgetsHistory(s: Session, t: Session)
    requires s.loading == t.loading
    ensures Logout(s) == Logout(t)
  {
  }
}

=== FILE: authorship.dfy ===
/** Who wrote what, as the pages decide it from ids. */
module Authorship {
  import opened Wrappers
  import opened Entities
  import Keyed

  /** `posts.filter(post => post.author.id === user?.id)`: the signed-in user's posts, in list
      order; with nobody signed in `user?.id` is `undefined`, which matches no author id. */
  function UserPosts(posts: seq<Post>, user: Option<User>): (r: seq<Post>)
    ensures user.None? ==> r == []
    ensures user.Some? ==> && (forall i :: 0 <= i < |r| ==> r[i].author.id == user.value.id)
                           && (forall p: Post :: p.author.id == user.value.id ==>
                                 multiset(r)[p] == multiset(posts)[p])
  {
    match user
    case None => []
    case Some(u) => Keyed.Keep(posts, AuthorId, u.id)
  }

  /** The user's posts keep the order they have in the list. */
  lemma UserPostsInOrder(posts: seq<Post>, user: Option<User>)
    ensures Keyed.Subsequence(UserPosts(posts, user), posts)
  {
    if user.Some? {
      Keyed.KeepInOrder(posts, AuthorId, user.value.id);
    }
  }

  /** A loaded post is among the user's posts exactly when the user is signed in and wrote it. */
  lemma UserPostsMembership(posts: seq<Post>, user: Option<User>, p: Post)
    requires p in posts
    ensures p in UserPosts(posts, user) <==> user.Some? && p.author.id == user.value.id
  {
    var r := UserPosts(posts, user);
    if user.Some? && p.author.id == user.value.id {
      assert multiset(posts)[p] > 0;
      assert multiset(r)[p] > 0;
    }
  }

  /** `user && post && user.id === post.author.id`. */
  predicate IsPostAuthor(user: Option<User>, post: Option<Post>) {
    user.Some? && post.Some? && user.value.id == post.value.author.id
  }

  /** `user?.id === comment.author.id || isAuthor`: the comment's writer or the post's author. */
  predicate CanDeleteComment(user: Option<User>, post: Option<Post>, c: Comment) {
    (user.Some? && user.value.id == c.author.id) || IsPostAuthor(user, post)
  }

  /** The detail page's author check agrees with the "my posts" filter: the viewer is the
      author of a loaded post exactly when that post is among the viewer's own posts. */
  lemma AuthorIffListedAsOwn(posts: seq<Post>, user: Option<User>, p: Post)
    requires p in posts
    ensures IsPostAuthor(user, Some(p)) <==> p in UserPosts(posts, user)
  {
    UserPostsMembership(posts, user, p);
  }
}

=== FILE: blog_laws.dfy ===
/** Laws of the post collection store: how its reconciliation steps compose, what they
    preserve, and which of them undo one another. */
module BlogLaws {
  import opened Wrappers
  import opened Entities
  import opened BlogStore
  import Keyed

  /** A successful delete keeps the survivors in their original relative order. */
  lemma DeleteKeepsOrder(s: BlogState, id: string)
    ensures Keyed.Subsequence(DeletePost(s, id, Ok(())).state.posts, s.posts)
  {
    Keyed.RemoveInOrder(s.posts, PostId, id);
  }

  /** Deleting an id that is not loaded leaves the list equal. */
  lemma DeleteAbsentIsNoOp(s: BlogState, id: string)
    requires !Loaded(s.posts, id)
    ensures DeletePost(s, id, Ok(())).state == s
  {
    Keyed.RemoveAbsent(s.posts, PostId, id);
  }

  /** Deleting the same id twice has the effect of deleting it once. */
  lemma DeleteIdempotent(s: BlogState, id: string)
    ensures var once := DeletePost(s, id, Ok(())).state;
            DeletePost(once, id, Ok(())).state == once
  {
    Keyed.RemoveIdempotent(s.posts, PostId, id);
  }

  /** Deleting a freshly created post restores the list it was created in. */
  lemma DeleteUndoesCreate(s: BlogState, p: Post)
    requires !Loaded(s.posts, p.id)
    ensures DeletePost(CreatePost(s, Ok(p)).state, p.id, Ok(())).state == s
  {
    var xs := [p] + s.posts;
    assert xs[0] == p && xs[1..] == s.posts;
    Keyed.RemoveAbsent(s.posts, PostId, p.id);
  }

  /** Applying the same update reply twice has the effect of applying it once,
      whatever id the reply carries. */
  lemma UpdateIdempotent(s: BlogState, id: string, p: Post)
    ensures var once := UpdatePost(s, id, Ok(p)).state;
            UpdatePost(once, id, Ok(p)).state == once
  {
  }

  /** Deleting an id after updating it, with a reply that keeps the id, is deleting it. */
  lemma DeleteAfterUpdate(s: BlogState, id: string, p: Post)
    requires p.id == id
    ensures DeletePost(UpdatePost(s, id, Ok(p)).state, id, Ok(())).state
         == DeletePost(s, id, Ok(())).state
  {
    Keyed.RemoveAfterPatch(s.posts, PostId, id, SetTo(p));
  }

  /** Deleting the comment just added restores every post, provided each matching post
      had a comment list without that comment id. */
  lemma DeleteCommentUndoesAddComment(s: BlogState, postId: string, c: Comment)
    requires forall i :: 0 <= i < |s.posts| && s.posts[i].id == postId ==>
               s.posts[i].comments.Some? && !Keyed.HasKey(s.posts[i].comments.value, CommentId, c.id)
    ensures DeleteComment(AddComment(s, postId, Ok(c)).state, postId, c.id, Ok(())).state == s
  {
    var mid := AddComment(s, postId, Ok(c)).state;
    var fin := DeleteComment(mid, postId, c.id, Ok(())).state;
    forall i | 0 <= i < |s.posts| ensures fin.posts[i] == s.posts[i] {
      if s.posts[i].id == postId {
        var cs := s.posts[i].comments.value;
        assert mid.posts[i].comments == Some(cs + [c]);
        Keyed.RemoveAppended(cs, c, CommentId);
        Keyed.RemoveAbsent(cs, CommentId, c.id);
      }
    }
  }

  /** Within the matching post, deleting a comment keeps every other comment as often as
      it occurred and in its original order. */
  lemma DeleteCommentKeepsOtherComments(s: BlogState, postId: string, commentId: string, i: nat)
    requires i < |s.posts| && s.posts[i].id == postId && s.posts[i].comments.Some?
    ensures var after := DeleteComment(s, postId, commentId, Ok(())).state.posts[i].comments;
            var before := s.posts[i].comments.value;
            && after.Some?
            && (forall c: Comment :: c.id != commentId ==> multiset(after.value)[c] == multiset(before)[c])
            && Keyed.Subsequence(after.value, before)
  {
    Keyed.RemoveInOrder(s.posts[i].comments.value, CommentId, commentId);
  }

  /** Creating a post whose id is not loaded keeps ids unique. */
  lemma CreateKeepsIdsUnique(s: BlogState, p: Post)
    requires UniqueIds(s.posts) && !Loaded(s.posts, p.id)
    ensures UniqueIds(CreatePost(s, Ok(p)).state.posts)
  {
    var xs := CreatePost(s, Ok(p)).state.posts;
    forall i, j | 0 <= i < j < |xs| ensures xs[i].id != xs[j].id {
      if i == 0 {
        assert xs[j] == s.posts[j - 1];
      } else {
        assert xs[i] == s.posts[i - 1] && xs[j] == s.posts[j - 1];
      }
    }
  }

  /** An update whose reply keeps the id keeps ids unique. */
  lemma UpdateKeepsIdsUnique(s: BlogState, id: string, p: Post)
    requires UniqueIds(s.posts) && p.id == id
    ensures UniqueIds(UpdatePost(s, id, Ok(p)).state.posts)
  {
  }

  /** A delete keeps ids unique. */
  lemma DeleteKeepsIdsUnique(s: BlogState, id: string)
    requires UniqueIds(s.posts)
    ensures UniqueIds(DeletePost(s, id, Ok(())).state.posts)
  {
    Keyed.RemoveKeepsDistinct(s.posts, PostId, id);
  }

  /** Comment operations never change which ids are loaded, nor where. */
  lemma CommentOpsKeepIds(s: BlogState, postId: string, c: Comment, commentId: string)
    ensures var added := AddComment(s, postId, Ok(c)).state.posts;
            forall i :: 0 <= i < |s.posts| ==> added[i].id == s.posts[i].id
    ensures var dropped := DeleteComment(s, postId, commentId, Ok(())).state.posts;
            forall i :: 0 <= i < |s.posts| ==> dropped[i].id == s.posts[i].id
  {
  }
}

=== FILE: blog_store.dfy ===
/** The post collection store: the client's in-memory mirror of the post list.
    Every operation takes the server's reply as a parameter and returns the new store
    state together with what the call resolves to. A failed call throws a fixed message
    before touching the list, so the list is left as it was. */
module BlogStore {
  import opened Wrappers
  import opened Entities
  import opened JsText
  import Keyed

  datatype BlogState = BlogState(posts: seq<Post>, loading: bool)

  /** A store operation's effect: the new state and the resolved value or thrown message. */
  datatype Step<T> = Step(state: BlogState, result: Result<T>)

  const FetchPostsError := "Failed to fetch posts"
  const CreatePostError := "Failed to create post"
  const UpdatePostError := "Failed to update post"
  const DeletePostError := "Failed to delete post"
  const GetPostError := "Failed to fetch post"
  const SearchPostsError := "Failed to search posts"
  const AddCommentError := "Failed to add comment"
  const DeleteCommentError := "Failed to delete comment"

  /** The provider's first state: no posts, not loading. */
  function Initial(): (s: BlogState)
    ensures s.posts == [] && !s.loading
  {
    BlogState([], false)
  }

  /** Post ids are unique within the collection. */
  ghost predicate UniqueIds(posts: seq<Post>) {
    Keyed.DistinctKeys(posts, PostId)
  }

  /** Some loaded post has this id. */
  predicate Loaded(posts: seq<Post>, id: string) {
    Keyed.HasKey(posts, PostId, id)
  }

  /** The value of the `Authorization` header for a stored token, if one is sent:
      only a non-empty token produces `Bearer <token>`. */
  function AuthHeader(token: Option<string>): (h: Option<string>)
    ensures h.Some? <==> token.Some? && Truthy(token.value)
    ensures h.Some? ==> |h.value| > 7 && h.value[..7] == "Bearer "
  {
    if token.Some? && Truthy(token.value) then Some("Bearer " + token.value) else None
  }

  /** The token a bearer header carries. */
  function BearerToken(h: string): string {
    if |h| >= 7 && h[..7] == "Bearer " then h[7..] else h
  }

  /** The header carries the stored token unchanged. */
  lemma AuthHeaderCarriesToken(token: Option<string>)
    requires AuthHeader(token).Some?
    ensures token.Some? && BearerToken(AuthHeader(token).value) == token.value
  {
    assert ("Bearer " + token.value)[7..] == token.value;
  }

  /** `fetchPosts`: replace the list with the server's, keeping its order; `loading` ends false
      on both branches (the `finally`). */
  function FetchPosts(s: BlogState, reply: Reply<seq<Post>>): (r: Step<()>)
    ensures !r.state.loading
    ensures reply.Ok? ==> r.state.posts == reply.value && r.result.Success?
    ensures reply.Failed? ==> r.state.posts == s.posts && r.result == Failure(FetchPostsError)
  {
    match reply
    case Ok(ps) => Step(BlogState(ps, false), Success(()))
    case Failed => Step(s.(loading := false), Failure(FetchPostsError))
  }

  /** `createPost`: the created post goes in front; every old entry moves back by one. */
  function CreatePost(s: BlogState, reply: Reply<Post>): (r: Step<()>)
    ensures r.state.loading == s.loading
    ensures reply.Ok? ==> && |r.state.posts| == |s.posts| + 1
                          && r.state.posts[0] == reply.value
                          && r.state.posts[1..] == s.posts
                          && r.result.Success?
    ensures reply.Failed? ==> r.state == s && r.result == Failure(CreatePostError)
  {
    match reply
    case Ok(p) => Step(s.(posts := [p] + s.posts), Success(()))
    case Failed => Step(s, Failure(CreatePostError))
  }

  /** Replace a post wholesale with the server's copy. */
  function SetTo(p: Post): Post -> Post {
    _ => p
  }

  /** `updatePost`: every entry with the id becomes the server's reply, in place;
      all other entries and all positions stay. */
  function UpdatePost(s: BlogState, id: string, reply: Reply<Post>): (r: Step<()>)
    ensures r.state.loading == s.loading
    ensures reply.Ok? ==> && |r.state.posts| == |s.posts|
                          && (forall i :: 0 <= i < |s.posts| && s.posts[i].id == id ==>
                                r.state.posts[i] == reply.value)
                          && (forall i :: 0 <= i < |s.posts| && s.posts[i].id != id ==>
                                r.state.posts[i] == s.posts[i])
                          && r.result.Success?
    ensures reply.Ok? && !Loaded(s.posts, id) ==> r.state.posts == s.posts
    ensures reply.Failed? ==> r.state == s && r.result == Failure(UpdatePostError)
  {
    match reply
    case Ok(p) => Step(s.(posts := Keyed.Patch(s.posts, PostId, id, SetTo(p))), Success(()))
    case Failed => Step(s, Failure(UpdatePostError))
  }

  /** `deletePost`: drop every entry with the id and keep all the others, as often as they occurred. */
  function DeletePost(s: BlogState, id: string, reply: Reply<()>): (r: Step<()>)
    ensures r.state.loading == s.loading
    ensures reply.Ok? ==> && !Loaded(r.state.posts, id)
                          && (forall p: Post :: p.id != id ==> multiset(r.state.posts)[p] == multiset(s.posts)[p])
                          && r.result.Success?
    ensures reply.Failed? ==> r.state == s && r.result == Failure(DeletePostError)
  {
    match reply
    case Ok(_) => Step(s.(posts := Keyed.Remove(s.posts, PostId, id)), Success(()))
    case Failed => Step(s, Failure(DeletePostError))
  }

  /** `getPost`: a read on the side; the store is never changed. */
  function GetPost(s: BlogState, id: string, reply: Reply<Post>): (r: Step<Post>)
    ensures r.state == s
    ensures reply.Ok? ==> r.result == Success(reply.value)
    ensures reply.Failed? ==> r.result == Failure(GetPostError)
  {
    match reply
    case Ok(p) => Step(s, Success(p))
    case Failed => Step(s, Failure(GetPostError))
  }

  /** `searchPosts`: the results replace the list and are also returned; `loading` is not touched. */
  function SearchPosts(s: BlogState, query: string, reply: Reply<seq<Post>>): (r: Step<seq<Post>>)
    ensures r.state.loading == s.loading
    ensures reply.Ok? ==> r.state.posts == reply.value && r.result == Success(r.state.posts)
    ensures reply.Failed? ==> r.state == s && r.result == Failure(SearchPostsError)
  {
    match reply
    case Ok(ps) => Step(s.(posts := ps), Success(ps))
    case Failed => Step(s, Failure(SearchPostsError))
  }

  /** Append a comment to a post's list, starting from `[]` when the list is absent. */
  function AppendComment(c: Comment): Post -> Post {
    (p: Post) => p.(comments := Some(CommentsOrEmpty(p) + [c]))
  }

  /** `addComment`: the server's comment goes at the end of the matching post's comments;
      other posts are untouched, and nothing changes when the post is not loaded. */
  function AddComment(s: BlogState, postId: string, reply: Reply<Comment>): (r: Step<()>)
    ensures r.state.loading == s.loading
    ensures reply.Ok? ==> && |r.state.posts| == |s.posts|
                          && (forall i :: 0 <= i < |s.posts| && s.posts[i].id == postId ==>
                                r.state.posts[i] == s.posts[i].(comments := Some(CommentsOrEmpty(s.posts[i]) + [reply.value])))
                          && (forall i :: 0 <= i < |s.posts| && s.posts[i].id != postId ==>
                                r.state.posts[i] == s.posts[i])
                          && r.result.Success?
    ensures reply.Ok? && !Loaded(s.posts, postId) ==> r.state.posts == s.posts
    ensures reply.Failed? ==> r.state == s && r.result == Failure(AddCommentError)
  {
    match reply
    case Ok(c) => Step(s.(posts := Keyed.Patch(s.posts, PostId, postId, AppendComment(c))), Success(()))
    case Failed => Step(s, Failure(AddCommentError))
  }

  /** `comments?.filter(c => c.id !== commentId)`: an absent list stays absent. */
  function DropComment(commentId: string): Post -> Post {
    (p: Post) => p.(comments := match p.comments
                        case None => None
                        case Some(cs) => Some(Keyed.Remove(cs, CommentId, commentId)))
  }

  /** `deleteComment`: the comment disappears from the matching post only; a post whose
      comments are absent keeps them absent. */
  function DeleteComment(s: BlogState, postId: string, commentId: string, reply: Reply<()>): (r: Step<()>)
    ensures r.state.loading == s.loading
    ensures reply.Ok? ==> && |r.state.posts| == |s.posts|
                          && (forall i :: 0 <= i < |s.posts| && s.posts[i].id == postId ==>
                                && r.state.posts[i].(comments := None) == s.posts[i].(comments := None)
                                && (r.state.posts[i].comments.None? <==> s.posts[i].comments.None?)
                                && !Keyed.HasKey(CommentsOrEmpty(r.state.posts[i]), CommentId, commentId))
                          && (forall i :: 0 <= i < |s.posts| && s.posts[i].id != postId ==>
                                r.state.posts[i] == s.posts[i])
                          && r.result.Success?
    ensures reply.Ok? && !Loaded(s.posts, postId) ==> r.state.posts == s.posts
    ensures reply.Failed? ==> r.state == s && r.result == Failure(DeleteCommentError)
  {
    match reply
    case Ok(_) => Step(s.(posts := Keyed.Patch(s.posts, PostId, postId, DropComment(commentId))), Success(()))
    case Failed => Step(s, Failure(DeleteCommentError))
  }
}

=== FILE: create_post.dfy ===
/** The create-post form. */
module CreatePostPage {
  import opened Wrappers
  import opened Entities
  import BlogStore
  import Forms

  datatype CreateForm = CreateForm(title: string, content: string, loading: bool, error: string)

  /** The fields sent to `createPost`, exactly as typed. */
  datatype Draft = Draft(title: string, content: string)

  /** The form, the store, what was sent and where the page navigated after a submission. */
  datatype CreateSubmit = CreateSubmit(form: CreateForm, store: BlogStore.BlogState,
                                       sent: Option<Draft>, navigate: Option<string>)

  const CreateError := "Failed to create post"

  /** `handleSubmit`. A blank title or content shows "Please fill in all fields" and sends
      nothing. Otherwise the banner is cleared and the untrimmed fields are sent; success goes
      to the dashboard with the new post in front, failure shows "Failed to create post";
      `loading` is off afterwards. */
  function Submit(f: CreateForm, store: BlogStore.BlogState, reply: Reply<Post>): (r: CreateSubmit)
    ensures !Forms.PostFormFilled(f.title, f.content) ==>
              r == CreateSubmit(f.(error := Forms.FillAllFieldsError), store, None, None)
    ensures Forms.PostFormFilled(f.title, f.content) ==>
              && r.sent == Some(Draft(f.title, f.content))
              && !r.form.loading
              && r.form.title == f.title && r.form.content == f.content
    ensures Forms.PostFormFilled(f.title, f.content) && reply.Ok? ==>
              && r.navigate == Some("/dashboard")
              && r.form == f.(loading := false, error := "")
              && r.store == store.(posts := [reply.value] + store.posts)
    ensures Forms.PostFormFilled(f.title, f.content) && reply.Failed? ==>
              && r.navigate.None?
              && r.form == f.(loading := false, error := CreateError)
              && r.store == store
  {
    if !Forms.PostFormFilled(f.title, f.content) then
      CreateSubmit(f.(error := Forms.FillAllFieldsError), store, None, None)
    else
      var started := f.(loading := true, error := "");
      var step := BlogStore.CreatePost(store, reply);
      var sent := Some(Draft(f.title, f.content));
      match step.result
      case Success(_) => CreateSubmit(started.(loading := false), step.state, sent, Some("/dashboard"))
      case Failure(_) => CreateSubmit(started.(loading := false, error := CreateError), step.state, sent, None)
  }
}

=== FILE: dashboard.dfy ===
/** The dashboard: the signed-in user's own posts, with admin-only authoring controls. */
module DashboardPage {
  import opened Wrappers
  import opened Entities
  import BlogStore
  import Authorship

  /** What the dashboard renders besides the post cards. */
  datatype DashboardView = DashboardView(
    createButton: bool,     // "Create New Post" in the header
    rowActions: bool,       // Edit and Delete on each card
    emptyState: bool,       // the "You haven't written any posts yet." card
    writeFirstPost: bool,   // its "Write Your First Post" button
    cards: seq<Post>)

  /** The rendered dashboard: authoring controls for admins only, the empty card exactly
      when the user has no posts; the empty card's button is not role-gated. */
  function View(user: Option<User>, posts: seq<Post>): (v: DashboardView)
    ensures v.createButton <==> IsAdmin(user)
    ensures v.rowActions <==> IsAdmin(user)
    ensures v.emptyState <==> v.cards == []
    ensures v.writeFirstPost <==> v.emptyState
    ensures v.cards == Authorship.UserPosts(posts, user)
  {
    var mine := Authorship.UserPosts(posts, user);
    DashboardView(IsAdmin(user), IsAdmin(user), mine == [], mine == [], mine)
  }

  const DeleteError := "Failed to delete post"

  /** The store and the page's error banner after `handleDeletePost`. */
  datatype DeleteOutcome = DeleteOutcome(store: BlogStore.BlogState, error: string)

  /** `handleDeletePost`: nothing happens unless the user confirms; a confirmed delete that
      fails shows "Failed to delete post" and keeps the list; a success leaves the banner as it was. */
  function HandleDeletePost(store: BlogStore.BlogState, error: string, postId: string,
                            confirmed: bool, reply: Reply<()>): (r: DeleteOutcome)
    ensures !confirmed ==> r == DeleteOutcome(store, error)
    ensures confirmed && reply.Ok? ==> && !BlogStore.Loaded(r.store.posts, postId)
                                       && r.store == BlogStore.DeletePost(store, postId, reply).state
                                       && r.error == error
    ensures confirmed && reply.Failed? ==> r.store == store && r.error == DeleteError
  {
    if !confirmed then DeleteOutcome(store, error)
    else
      var step := BlogStore.DeletePost(store, postId, reply);
      if step.result.Success? then DeleteOutcome(step.state, error)
      else DeleteOutcome(step.state, DeleteError)
  }
}

=== FILE: edit_post.dfy ===
/** The edit-post form: load the post into the fields, then validate and update. */
module EditPostPage {
  import opened Wrappers
  import opened Entities
  import opened JsText
  import BlogStore
  import Forms

  datatype EditForm = EditForm(title: string, content: string, loading: bool, saving: bool, error: string)

  /** As mounted: empty fields, loading. */
  function Initial(): (f: EditForm)
    ensures f.title == [] && f.content == [] && f.loading && !f.saving && f.error == []
  {
    EditForm("", "", true, false, "")
  }

  const LoadError := "Failed to load post"
  const UpdateError := "Failed to update post"

  /** The loading effect: without an id it returns at once (the form stays loading);
      otherwise the fetched title and content fill the fields, or "Failed to load post"
      shows; loading stops after the attempt. */
  function Load(f: EditForm, id: Option<string>, reply: Reply<Post>): (r: EditForm)
    ensures !(id.Some? && Truthy(id.value)) ==> r == f
    ensures id.Some? && Truthy(id.value) ==> !r.loading && r.saving == f.saving
    ensures id.Some? && Truthy(id.value) && reply.Ok? ==>
              r.title == reply.value.title && r.content == reply.value.content && r.error == f.error
    ensures id.Some? && Truthy(id.value) && reply.Failed? ==>
              r.title == f.title && r.content == f.content && r.error == LoadError
  {
    if !(id.Some? && Truthy(id.value)) then f
    else
      match reply
      case Ok(p) => f.(title := p.title, content := p.content, loading := false)
      case Failed => f.(error := LoadError, loading := false)
  }

  /** The fields sent to `updatePost`. */
  datatype Update = Update(id: string, title: string, content: string)

  datatype EditSubmit = EditSubmit(form: EditForm, store: BlogStore.BlogState,
                                   sent: Option<Update>, navigate: Option<string>)

  /** `handleSubmit`: validation comes first, then the id check, then the update; success
      goes to the dashboard, failure shows "Failed to update post"; `saving` is off afterwards. */
  function Submit(f: EditForm, id: Option<string>, store: BlogStore.BlogState, reply: Reply<Post>): (r: EditSubmit)
    ensures !Forms.PostFormFilled(f.title, f.content) ==>
              r == EditSubmit(f.(error := Forms.FillAllFieldsError), store, None, None)
    ensures Forms.PostFormFilled(f.title, f.content) && !(id.Some? && Truthy(id.value)) ==>
              r == EditSubmit(f, store, None, None)
    ensures Forms.PostFormFilled(f.title, f.content) && id.Some? && Truthy(id.value) ==>
              && r.sent == Some(Update(id.value, f.title, f.content))
              && !r.form.saving
              && r.store == BlogStore.UpdatePost(store, id.value, reply).state
              && (reply.Ok? ==> r.navigate == Some("/dashboard") && r.form == f.(saving := false, error := ""))
              && (reply.Failed? ==> && r.navigate.None? && r.form == f.(saving := false, error := UpdateError)
                                    && r.store == store)
  {
    if !Forms.PostFormFilled(f.title, f.content) then
      EditSubmit(f.(error := Forms.FillAllFieldsError), store, None, None)
    else if !(id.Some? && Truthy(id.value)) then
      EditSubmit(f, store, None, None)
    else
      var started := f.(saving := true, error := "");
      var step := BlogStore.UpdatePost(store, id.value, reply);
      var sent := Some(Update(id.value, f.title, f.content));
      match step.result
      case Success(_) => EditSubmit(started.(saving := false), step.state, sent, Some("/dashboard"))
      case Failure(_) => EditSubmit(started.(saving := false, error := UpdateError), step.state, sent, None)
  }

  /** A successful load followed by an unedited submit sends back the post's own title and
      content, provided neither is blank. */
  lemma LoadThenSubmitSendsLoadedFields(id: string, p: Post, store: BlogStore.BlogState, reply: Reply<Post>)
    requires Truthy(id) && Forms.PostFormFilled(p.title, p.content)
    ensures var loaded := Load(Initial(), Some(id), Ok(p));
            Submit(loaded, Some(id), store, reply).sent == Some(Update(id, p.title, p.content))
  {
  }
}

=== FILE: entities.dfy ===
/** The records the client exchanges with the server. Timestamps are opaque strings;
    fields the client never inspects are carried as they arrive. */
module Entities {
  import opened Wrappers

  /** `role?: 'admin' | 'user'`. */
  datatype Role = AdminRole | UserRole

  /** The signed-in identity. */
  datatype User = User(id: string, email: string, name: string, role: Option<Role>,
                       bio: Option<string>, profilePicture: Option<string>)

  datatype PostAuthor = PostAuthor(id: string, name: string, email: string)

  datatype CommentAuthor = CommentAuthor(id: string, name: string)

  datatype Comment = Comment(id: string, content: string, author: CommentAuthor, createdAt: string)

  /** A post; `comments` is absent when the server omitted it (list endpoints). */
  datatype Post = Post(id: string, title: string, content: string, author: PostAuthor,
                       createdAt: string, updatedAt: string, comments: Option<seq<Comment>>)

  /** The row type of the admin listing: a post without `updatedAt` or comments. */
  datatype AdminPost = AdminPost(id: string, title: string, content: string, author: PostAuthor,
                                 createdAt: string)

  function PostId(p: Post): string { p.id }

  function AuthorId(p: Post): string { p.author.id }

  function CommentId(c: Comment): string { c.id }

  function AdminPostId(p: AdminPost): string { p.id }

  /** `post.comments || []`: an absent list reads as empty. */
  function CommentsOrEmpty(p: Post): (cs: seq<Comment>)
    ensures p.comments.Some? ==> cs == p.comments.value
    ensures p.comments.None? ==> cs == []
  {
    match p.comments
    case Some(cs) => cs
    case None => []
  }

  /** `user?.role === 'admin'`: false when signed out or when the role is missing. */
  predicate IsAdmin(user: Option<User>) {
    user.Some? && user.value.role == Some(AdminRole)
  }
}

=== FILE: excerpt.dfy ===
/** `getExcerpt`, shared verbatim by the home, dashboard and profile pages except for its
    default length: strip Markdown emphasis marks, flatten line breaks, then cut. */
module Excerpt {
  import Keyed

  /** The characters `/[#*`]/g` removes. */
  predicate IsMark(c: char) {
    c == '#' || c == '*' || c == '`'
  }

  /** `content.replace(/[#*`]/g, '')`. */
  function StripMarks(s: string): (r: string)
    ensures |r| <= |s|
    ensures forall i :: 0 <= i < |r| ==> !IsMark(r[i])
    ensures forall c :: multiset(r)[c] == if IsMark(c) then 0 else multiset(s)[c]
  {
    Keyed.Remove(s, IsMark, true)
  }

  /** Stripping keeps the remaining characters in the order the content has them. */
  lemma StripMarksInOrder(s: string)
    ensures Keyed.Subsequence(StripMarks(s), s)
  {
    Keyed.RemoveInOrder(s, IsMark, true);
  }

  /** `.replace(/\n/g, ' ')`: each line feed becomes a space, everything else stays in place. */
  function FlattenLines(s: string): (r: string)
    ensures |r| == |s|
    ensures forall i :: 0 <= i < |s| ==> r[i] == if s[i] == '\n' then ' ' else s[i]
  {
    if s == [] then [] else [if s[0] == '\n' then ' ' else s[0]] + FlattenLines(s[1..])
  }

  /** The text an excerpt is cut from. */
  function PlainText(content: string): (p: string)
    ensures |p| <= |content|
    ensures forall i :: 0 <= i < |p| ==> !IsMarkup(p[i])
  {
    FlattenLines(StripMarks(content))
  }

  /** What never appears in plain text or in an excerpt. */
  predicate IsMarkup(c: char) {
    IsMark(c) || c == '\n'
  }

  /** JavaScript's `substring(0, n)` for `n <= |s|`: a negative end reads as 0. */
  function Prefix(s: string, n: int): (r: string)
    requires n <= |s|
    ensures |r| == if n < 0 then 0 else n
    ensures r == s[..|r|]
  {
    if n < 0 then [] else s[..n]
  }

  /** `getExcerpt(content, maxLength)`. */
  function GetExcerpt(content: string, maxLength: int): (r: string)
    ensures forall i :: 0 <= i < |r| ==> !IsMarkup(r[i])
    ensures |r| <= (if maxLength < 0 then 0 else maxLength) + 3
    ensures |PlainText(content)| <= maxLength ==> r == PlainText(content)
    ensures |PlainText(content)| > maxLength ==>
              && |r| == (if maxLength < 0 then 0 else maxLength) + 3
              && r[..|r| - 3] == PlainText(content)[..|r| - 3]
              && r[|r| - 3..] == "..."
  {
    var plain := PlainText(content);
    if |plain| > maxLength then
      var cut := Prefix(plain, maxLength);
      MarkupFreeConcat(cut, "...");
      assert (cut + "...")[..|cut|] == cut && (cut + "...")[|cut|..] == "...";
      cut + "..."
    else plain
  }

  /** Joining two markup-free strings gives a markup-free string. */
  lemma MarkupFreeConcat(a: string, b: string)
    requires forall i :: 0 <= i < |a| ==> !IsMarkup(a[i])
    requires forall i :: 0 <= i < |b| ==> !IsMarkup(b[i])
    ensures forall i :: 0 <= i < |a + b| ==> !IsMarkup((a + b)[i])
  {
    forall i | 0 <= i < |a + b| ensures !IsMarkup((a + b)[i]) {
      if i < |a| { assert (a + b)[i] == a[i]; } else { assert (a + b)[i] == b[i - |a|]; }
    }
  }

  const HomeExcerptLength := 150
  const DashboardExcerptLength := 150
  const ProfileExcerptLength := 100

  /** Plain text is already plain: stripping and flattening it again changes nothing. */
  lemma {:induction false} PlainTextIdempotent(content: string)
    ensures PlainText(PlainText(content)) == PlainText(content)
  {
    var p := PlainText(content);
    assert forall i :: 0 <= i < |p| ==> !IsMarkup(p[i]);
    NoMarksStripsToSelf(p);
    assert FlattenLines(p) == p;
  }

  lemma {:induction false} NoMarksStripsToSelf(s: string)
    requires forall i :: 0 <= i < |s| ==> !IsMark(s[i])
    ensures StripMarks(s) == s
  {
    assert !Keyed.HasKey(s, IsMark, true);
    Keyed.RemoveAbsent(s, IsMark, true);
  }

  /** Markup-free text that fits is its own excerpt. */
  lemma ShortPlainTextIsItsOwnExcerpt(s: string, maxLength: int)
    requires forall i :: 0 <= i < |s| ==> !IsMarkup(s[i])
    requires |s| <= maxLength
    ensures GetExcerpt(s, maxLength) == s
  {
    NoMarksStripsToSelf(s);
    assert FlattenLines(s) == s;
  }

  /** The profile page's excerpts are at most 103 characters, the other pages' at most 153. */
  lemma ExcerptBounds(content: string)
    ensures |GetExcerpt(content, ProfileExcerptLength)| <= 103
    ensures |GetExcerpt(content, HomeExcerptLength)| <= 153
    ensures |GetExcerpt(content, DashboardExcerptLength)| <= 153
  {
  }
}

=== FILE: forms.dfy ===
/** The submit guards of the post forms: both fields must hold something besides white space. */
module Forms {
  import opened JsText

  /** `title.trim() && content.trim()`: the check the create and edit forms make before sending. */
  predicate PostFormFilled(title: string, content: string) {
    HasText(title) && HasText(content)
  }

  const FillAllFieldsError := "Please fill in all fields"

  /** The form is refused exactly when one of the fields is blank. */
  lemma PostFormFilledIffNotBlank(title: string, content: string)
    ensures PostFormFilled(title, content) <==> !IsBlank(title) && !IsBlank(content)
  {
    TrimEmptyIffBlank(title);
    TrimEmptyIffBlank(content);
  }
}

=== FILE: home.dfy ===
/** The home page: load the list (search results when the URL carries a query, all posts
    otherwise) and link each card onward. */
module HomePage {
  import opened Wrappers
  import opened Entities
  import opened JsText
  import BlogStore

  /** Which list request the page made. */
  datatype ListRequest = SearchRequest(query: string) | FetchRequest

  /** The outcome of `loadPosts`: the store afterwards, the page's own `loading`, the request made. */
  datatype HomeLoad = HomeLoad(store: BlogStore.BlogState, loading: bool, request: ListRequest)

  /** `loadPosts`: a non-empty `search` parameter searches, anything else fetches all posts.
      A failure is only logged, so the list stays as it was; the page stops loading either way. */
  function LoadPosts(store: BlogStore.BlogState, searchQuery: Option<string>, reply: Reply<seq<Post>>): (r: HomeLoad)
    ensures !r.loading
    ensures searchQuery.Some? && Truthy(searchQuery.value) ==>
              r.request == SearchRequest(searchQuery.value) && r.store.loading == store.loading
    ensures !(searchQuery.Some? && Truthy(searchQuery.value)) ==>
              r.request == FetchRequest && !r.store.loading
    ensures reply.Ok? ==> r.store.posts == reply.value
    ensures reply.Failed? ==> r.store.posts == store.posts
  {
    if searchQuery.Some? && Truthy(searchQuery.value) then
      HomeLoad(BlogStore.SearchPosts(store, searchQuery.value, reply).state, false, SearchRequest(searchQuery.value))
    else
      HomeLoad(BlogStore.FetchPosts(store, reply).state, false, FetchRequest)
  }

  /** Where "Read more" leads: the post for a signed-in user, the login page otherwise. */
  function ReadMoreTarget(user: Option<User>, post: Post): (path: string)
    ensures user.Some? ==> path == "/post/" + post.id
    ensures user.None? ==> path == "/login"
  {
    if user.Some? then "/post/" + post.id else "/login"
  }

  /** The `:id` a path matches in the route `/post/:id`: one non-empty segment after the prefix. */
  function PostRouteId(path: string): (id: Option<string>)
    ensures id.Some? ==> path == "/post/" + id.value && |id.value| > 0 && '/' !in id.value
    ensures id.None? ==> forall s :: |s| > 0 && '/' !in s ==> path != "/post/" + s
  {
    if |path| > 6 && path[..6] == "/post/" && '/' !in path[6..] then
      assert path == "/post/" + path[6..];
      Some(path[6..])
    else None
  }

  /** For a signed-in user "Read more" opens the detail page of exactly that post. */
  lemma ReadMoreOpensThatPost(user: Option<User>, post: Post)
    requires user.Some? && |post.id| > 0 && '/' !in post.id
    requires '?' !in post.id && '#' !in post.id && '%' !in post.id
    ensures PostRouteId(ReadMoreTarget(user, post)) == Some(post.id)
  {
    var path := ReadMoreTarget(user, post);
    assert path[..6] == "/post/" && path[6..] == post.id;
  }
}

=== FILE: js_text.dfy ===
/** The pieces of JavaScript string semantics the client relies on:
    truthiness of a string and `String.prototype.trim`.
    A `char` stands for one UTF-16 code unit. */
module JsText {

  /** A string is truthy in JavaScript exactly when it is non-empty. */
  predicate Truthy(s: string) {
    |s| > 0
  }

  /** The code points `trim` removes: ECMAScript WhiteSpace (TAB, VT, FF, ZWNBSP and the
      Unicode "Zs" space separators) and LineTerminator (LF, CR, LS, PS). */
  predicate IsWhiteSpace(c: char) {
    || c == '\t' || c == '\U{000B}' || c == '\U{000C}' || c == '\U{FEFF}'
    || c == ' ' || c == '\U{00A0}' || c == '\U{1680}'
    || ('\U{2000}' <= c <= '\U{200A}')
    || c == '\U{202F}' || c == '\U{205F}' || c == '\U{3000}'
    || c == '\n' || c == '\r' || c == '\U{2028}' || c == '\U{2029}'
  }

  /** Every character of `s` is white space (vacuously true of ""). */
  predicate IsBlank(s: string) {
    forall i :: 0 <= i < |s| ==> IsWhiteSpace(s[i])
  }

  /** How many white-space characters `s` starts with. */
  function LeadingBlanks(s: string): (n: nat)
    ensures n <= |s|
    ensures forall i :: 0 <= i < n ==> IsWhiteSpace(s[i])
    ensures n < |s| ==> !IsWhiteSpace(s[n])
  {
    if s != [] && IsWhiteSpace(s[0]) then 1 + LeadingBlanks(s[1..]) else 0
  }

  /** How many white-space characters `s` ends with. */
  function TrailingBlanks(s: string): (n: nat)
    ensures n <= |s|
    ensures forall i :: |s| - n <= i < |s| ==> IsWhiteSpace(s[i])
    ensures n < |s| ==> !IsWhiteSpace(s[|s| - 1 - n])
  {
    if s != [] && IsWhiteSpace(s[|s| - 1]) then 1 + TrailingBlanks(s[..|s| - 1]) else 0
  }

  /** JavaScript's `s.trim()`: what is left of `s` once its leading and trailing white space
      is gone. The result starts right after the leading white space, everything after it is
      white space, and it neither starts nor ends with white space. */
  function Trim(s: string): (r: string)
    ensures LeadingBlanks(s) + |r| <= |s|
    ensures r == s[LeadingBlanks(s)..LeadingBlanks(s) + |r|]
    ensures forall i :: LeadingBlanks(s) + |r| <= i < |s| ==> IsWhiteSpace(s[i])
    ensures r == [] || (!IsWhiteSpace(r[0]) && !IsWhiteSpace(r[|r| - 1]))
  {
    var t := s[LeadingBlanks(s)..];
    BlankTailOfSuffix(s, LeadingBlanks(s));
    t[..|t| - TrailingBlanks(t)]
  }

  /** The trailing white space of a suffix of `s` is white space of `s`. */
  lemma BlankTailOfSuffix(s: string, a: nat)
    requires a <= |s|
    ensures forall i :: |s| - TrailingBlanks(s[a..]) <= i < |s| ==> IsWhiteSpace(s[i])
  {
    var t := s[a..];
    forall i | |s| - TrailingBlanks(t) <= i < |s| ensures IsWhiteSpace(s[i]) {
      assert s[i] == t[i - a];
    }
  }

  /** `!!s.trim()`: the guard the forms use. */
  predicate HasText(s: string) {
    Truthy(Trim(s))
  }

  /** `s.trim()` is empty exactly when `s` is white space only. */
  lemma TrimEmptyIffBlank(s: string)
    ensures Trim(s) == [] <==> IsBlank(s)
  {
    var n := LeadingBlanks(s);
    if Trim(s) != [] {
      assert s[n] == Trim(s)[0];
    }
  }

  /** The form guard holds exactly when some character is not white space. */
  lemma HasTextIffNonBlank(s: string)
    ensures HasText(s) <==> exists i :: 0 <= i < |s| && !IsWhiteSpace(s[i])
  {
    TrimEmptyIffBlank(s);
  }

  /** Trimming twice is trimming once. */
  lemma TrimIdempotent(s: string)
    ensures Trim(Trim(s)) == Trim(s)
  {
    var r := Trim(s);
    assert LeadingBlanks(r) == 0;
    assert TrailingBlanks(r) == 0;
    assert r[0..][..|r|] == r;
  }
}

=== FILE: keyed.dfy ===
/** Order-preserving operations on sequences of records looked up by a key:
    the `filter` and `map` patterns the client applies to its post and comment lists. */
module Keyed {

  /** `a` can be obtained from `b` by deleting elements: the survivors keep their order. */
  ghost predicate Subsequence<T>(a: seq<T>, b: seq<T>)
    decreases |b|
  {
    if a == [] then true
    else if b == [] then false
    else (a[0] == b[0] && Subsequence(a[1..], b[1..])) || Subsequence(a, b[1..])
  }

  /** No two elements share a key. */
  ghost predicate DistinctKeys<T, K>(xs: seq<T>, key: T -> K) {
    forall i, j :: 0 <= i < j < |xs| ==> key(xs[i]) != key(xs[j])
  }

  /** Some element has key `k`. */
  predicate HasKey<T, K(==)>(xs: seq<T>, key: T -> K, k: K) {
    exists i :: 0 <= i < |xs| && key(xs[i]) == k
  }

  /** `xs.filter(x => key(x) === k)`. */
  function Keep<T(==,!new), K(==)>(xs: seq<T>, key: T -> K, k: K): (r: seq<T>)
    ensures |r| <= |xs|
    ensures forall i :: 0 <= i < |r| ==> key(r[i]) == k
    ensures forall x :: multiset(r)[x] == if key(x) == k then multiset(xs)[x] else 0
  {
    if xs == [] then []
    else
      assert xs == [xs[0]] + xs[1..];
      if key(xs[0]) == k then [xs[0]] + Keep(xs[1..], key, k) else Keep(xs[1..], key, k)
  }

  /** `xs.filter(x => key(x) !== k)`. */
  function Remove<T(==,!new), K(==)>(xs: seq<T>, key: T -> K, k: K): (r: seq<T>)
    ensures |r| <= |xs|
    ensures forall i :: 0 <= i < |r| ==> key(r[i]) != k
    ensures forall x :: multiset(r)[x] == if key(x) == k then 0 else multiset(xs)[x]
  {
    if xs == [] then []
    else
      assert xs == [xs[0]] + xs[1..];
      if key(xs[0]) == k then Remove(xs[1..], key, k) else [xs[0]] + Remove(xs[1..], key, k)
  }

  /** `xs.map(x => key(x) === k ? f(x) : x)`. */
  function Patch<T, K(==)>(xs: seq<T>, key: T -> K, k: K, f: T -> T): (r: seq<T>)
    ensures |r| == |xs|
    ensures forall i :: 0 <= i < |xs| ==> r[i] == if key(xs[i]) == k then f(xs[i]) else xs[i]
  {
    if xs == [] then [] else [if key(xs[0]) == k then f(xs[0]) else xs[0]] + Patch(xs[1..], key, k, f)
  }

  /** `Keep` preserves the relative order of what it keeps. */
  lemma {:induction false} KeepInOrder<T(!new), K>(xs: seq<T>, key: T -> K, k: K)
    ensures Subsequence(Keep(xs, key, k), xs)
  {
    if xs != [] {
      KeepInOrder(xs[1..], key, k);
      var r := Keep(xs, key, k);
      if key(xs[0]) == k {
        assert r[0] == xs[0] && r[1..] == Keep(xs[1..], key, k);
      } else {
        SubsequenceOfTail(r, xs);
      }
    }
  }

  /** `Remove` preserves the relative order of what it keeps. */
  lemma {:induction false} RemoveInOrder<T(!new), K>(xs: seq<T>, key: T -> K, k: K)
    ensures Subsequence(Remove(xs, key, k), xs)
  {
    if xs != [] {
      RemoveInOrder(xs[1..], key, k);
      var r := Remove(xs, key, k);
      if key(xs[0]) != k {
        assert r[0] == xs[0] && r[1..] == Remove(xs[1..], key, k);
      } else {
        SubsequenceOfTail(r, xs);
      }
    }
  }

  lemma SubsequenceOfTail<T>(a: seq<T>, b: seq<T>)
    requires b != [] && Subsequence(a, b[1..])
    ensures Subsequence(a, b)
  {
  }

  /** Removing a key that no element carries changes nothing. */
  lemma {:induction false} RemoveAbsent<T(!new), K>(xs: seq<T>, key: T -> K, k: K)
    requires !HasKey(xs, key, k)
    ensures Remove(xs, key, k) == xs
  {
    if xs != [] {
      assert key(xs[0]) != k;
      assert !HasKey(xs[1..], key, k) by {
        forall i | 0 <= i < |xs[1..]| ensures key(xs[1..][i]) != k {
          assert xs[1..][i] == xs[i + 1];
        }
      }
      RemoveAbsent(xs[1..], key, k);
      assert xs == [xs[0]] + xs[1..];
    }
  }

  /** Removing the key of a just-appended element drops that element. */
  lemma {:induction false} RemoveAppended<T(!new), K>(xs: seq<T>, x: T, key: T -> K)
    ensures Remove(xs + [x], key, key(x)) == Remove(xs, key, key(x))
  {
    if xs == [] {
      assert [] + [x] == [x];
    } else {
      var t := xs[1..];
      assert (xs + [x])[0] == xs[0] && (xs + [x])[1..] == t + [x];
      RemoveAppended(t, x, key);
    }
  }

  /** Removing from a concatenation removes from each part. */
  lemma {:induction false} RemoveConcat<T(!new), K>(xs: seq<T>, ys: seq<T>, key: T -> K, k: K)
    ensures Remove(xs + ys, key, k) == Remove(xs, key, k) + Remove(ys, key, k)
  {
    if xs == [] {
      assert xs + ys == ys;
    } else {
      assert (xs + ys)[0] == xs[0] && (xs + ys)[1..] == xs[1..] + ys;
      RemoveConcat(xs[1..], ys, key, k);
    }
  }

  /** Removing a key twice is removing it once. */
  lemma RemoveIdempotent<T(!new), K>(xs: seq<T>, key: T -> K, k: K)
    ensures Remove(Remove(xs, key, k), key, k) == Remove(xs, key, k)
  {
    RemoveAbsent(Remove(xs, key, k), key, k);
  }

  /** Patching a key that no element carries changes nothing. */
  lemma PatchAbsent<T, K>(xs: seq<T>, key: T -> K, k: K, f: T -> T)
    requires !HasKey(xs, key, k)
    ensures Patch(xs, key, k, f) == xs
  {
  }

  /** Removing a key undoes any key-preserving patch of that key. */
  lemma {:induction false} RemoveAfterPatch<T(!new), K>(xs: seq<T>, key: T -> K, k: K, f: T -> T)
    requires forall x :: key(x) == k ==> key(f(x)) == k
    ensures Remove(Patch(xs, key, k, f), key, k) == Remove(xs, key, k)
  {
    if xs != [] {
      var p := Patch(xs, key, k, f);
      assert p[1..] == Patch(xs[1..], key, k, f);
      RemoveAfterPatch(xs[1..], key, k, f);
    }
  }

  /** Removing one key from a sequence of distinct keys leaves the keys distinct. */
  lemma {:induction false} RemoveKeepsDistinct<T(!new), K>(xs: seq<T>, key: T -> K, k: K)
    requires DistinctKeys(xs, key)
    ensures DistinctKeys(Remove(xs, key, k), key)
  {
    if xs != [] {
      var tail := xs[1..];
      assert DistinctKeys(tail, key) by {
        forall i, j | 0 <= i < j < |tail| ensures key(tail[i]) != key(tail[j]) {
          assert tail[i] == xs[i + 1] && tail[j] == xs[j + 1];
        }
      }
      RemoveKeepsDistinct(tail, key, k);
      var rest := Remove(tail, key, k);
      if key(xs[0]) != k {
        var r := [xs[0]] + rest;
        forall i, j | 0 <= i < j < |r| ensures key(r[i]) != key(r[j]) {
          if i == 0 {
            var y := rest[j - 1];
            assert multiset(rest)[y] > 0;
            assert y in multiset(tail);
            assert y in tail;
            var m :| 0 <= m < |tail| && tail[m] == y;
            assert xs[m + 1] == y;
          } else {
            assert r[i] == rest[i - 1] && r[j] == rest[j - 1];
          }
        }
      }
    }
  }
}

=== FILE: navbar.dfy ===
/** The navigation bar: search box, role-gated actions and the account menu. */
module Navbar {
  import opened Wrappers
  import opened Entities
  import opened JsText
  import AuthStore
  import QueryString
  import HomePage
  import BlogStore

  /** Which controls the bar offers (menu items count whether or not the menu is open). */
  datatype NavControls = NavControls(dashboard: bool, createPost: bool, accountMenu: bool,
                                     adminItem: bool, profileItem: bool, logoutItem: bool,
                                     login: bool, register: bool)

  /** Signed out: Login and Register only. Signed in: dashboard, account menu with profile
      and logout; the create button and the Admin Dashboard item only for admins. */
  function Controls(user: Option<User>): (c: NavControls)
    ensures c.login <==> user.None?
    ensures c.register <==> user.None?
    ensures c.dashboard <==> user.Some?
    ensures c.accountMenu <==> user.Some?
    ensures c.profileItem <==> user.Some?
    ensures c.logoutItem <==> user.Some?
    ensures c.createPost <==> IsAdmin(user)
    ensures c.adminItem <==> IsAdmin(user)
    ensures c.createPost || c.adminItem ==> !c.login
  {
    var signedIn := user.Some?;
    NavControls(signedIn, IsAdmin(user), signedIn, IsAdmin(user), signedIn, signedIn, !signedIn, !signedIn)
  }

  /** `handleSearch`: navigate only when the box holds more than white space, and then to
      `/?search=` followed by the box's text as typed. */
  function SearchTarget(query: string): (target: Option<string>)
    ensures target.Some? <==> HasText(query)
    ensures target.Some? ==> target.value == "/?search=" + query
  {
    if HasText(query) then Some("/?search=" + query) else None
  }

  /** The search text the home page reads back from a target: its `search` parameter. */
  function SearchedFor(target: string): Option<string> {
    QueryString.Param(target, "search")
  }

  /** As written, the typed text goes into the path unencoded, so the home page reads back
      what `QueryString.ReadBack` describes: trailing blanks, tabs and line breaks dropped, cut
      at the first `#` and then at the first `&`, and decoded. */
  lemma RawSearchTargetReadsBack(query: string)
    requires HasText(query)
    ensures SearchTarget(query).Some?
    ensures SearchedFor(SearchTarget(query).value) == Some(QueryString.ReadBack(query))
  {
    assert SearchTarget(query).value == "/?" + "search" + "=" + query by {
      assert "/?" + "search" + "=" == "/?search=";
    }
    assert QueryString.IsPlainName("search");
    QueryString.ParamOfRawValue("search", query);
  }

  /** Typed unencoded, "a&b" reads back as "a": nothing is stripped, there is no `#`, and the
      pair ends at the `&`. The text is a parameter fixed by the precondition rather than a
      literal in the statement, so that the verifier reasons about it through the general
      lemmas instead of unfolding every function on the literal. */
  lemma ReadBackOfAAmpersandB(query: string)
    requires query == "a&b"
    ensures QueryString.ReadBack(query) == "a"
  {
    assert forall i :: 0 <= i < |query| ==> query[i] == 'a' || query[i] == '&' || query[i] == 'b';
    QueryString.ReadBackOfPlain(query);
    assert query[0] == 'a' && query[1..] == "&b";
    assert QueryString.IndexOf(query, '&') == 1;
    assert query[..1] == "a";
  }

  /** The concrete case: typing "a&b" navigates, and the home page searches for "a". */
  lemma SearchForAAmpersandBReadsA(query: string)
    requires query == "a&b"
    ensures SearchTarget(query).Some?
    ensures SearchedFor(SearchTarget(query).value) == Some("a")
  {
    assert HasText(query) by {
      assert !IsWhiteSpace(query[0]);
      HasTextIffNonBlank(query);
    }
    RawSearchTargetReadsBack(query);
    ReadBackOfAAmpersandB(query);
  }

  /** `handleSearch` with the text encoded before it goes into the path: the same guard, and
      the home page reads back exactly the typed text. */
  function EncodedSearchTarget(query: string): (target: Option<string>)
    ensures target.Some? <==> HasText(query)
    ensures target.Some? ==> SearchedFor(target.value) == Some(query)
  {
    if HasText(query) then
      assert QueryString.IsPlainName("search");
      QueryString.ParamOfEncoded("search", query);
      Some("/?" + "search" + "=" + QueryString.Encode(query))
    else None
  }

  /** Followed through to the home page as written: typing "a&b" makes the page search for "a". */
  lemma HomeSearchesForA(query: string, store: BlogStore.BlogState, reply: Reply<seq<Post>>)
    requires query == "a&b"
    ensures SearchTarget(query).Some?
    ensures HomePage.LoadPosts(store, SearchedFor(SearchTarget(query).value), reply).request
              == HomePage.SearchRequest("a")
  {
    SearchForAAmpersandBReadsA(query);
  }

  /** Followed through to the home page with encoding: the page searches for exactly the typed text. */
  lemma EncodedSearchReachesHome(query: string, store: BlogStore.BlogState, reply: Reply<seq<Post>>)
    requires HasText(query)
    ensures EncodedSearchTarget(query).Some?
    ensures HomePage.LoadPosts(store, SearchedFor(EncodedSearchTarget(query).value), reply).request
              == HomePage.SearchRequest(query)
  {
  }

  /** The session, whether the account menu is open, and where the bar navigated. */
  datatype LogoutOutcome = LogoutOutcome(session: AuthStore.Session, menuOpen: bool, navigate: string)

  /** `handleLogout`: sign out, close the menu, go home. */
  function HandleLogout(s: AuthStore.Session, menuOpen: bool): (r: LogoutOutcome)
    ensures r.session.user.None? && r.session.token.None? && r.session.loading == s.loading
    ensures !r.menuOpen && r.navigate == "/"
  {
    LogoutOutcome(AuthStore.Logout(s), false, "/")
  }

  /** After logging out from the bar, only Login and Register are offered. */
  lemma LogoutShowsSignedOutBar(s: AuthStore.Session, menuOpen: bool)
    ensures var c := Controls(HandleLogout(s, menuOpen).session.user);
            && c.login && c.register
            && !c.dashboard && !c.createPost && !c.accountMenu
            && !c.adminItem && !c.profileItem && !c.logoutItem
  {
  }
}

=== FILE: post_detail.dfy ===
/** The post detail page: a login gate, the post read through `getPost`, and its comments. */
module PostDetailPage {
  import opened Wrappers
  import opened Entities
  import opened JsText
  import BlogStore
  import Authorship

  /** The page's own state. */
  datatype DetailState = DetailState(post: Option<Post>, loading: bool, shouldLogin: bool,
                                     error: string, comment: string, commenting: bool)

  /** As mounted: no post, loading, no gate, empty comment box. */
  function Initial(): (st: DetailState)
    ensures st.post.None? && st.loading && !st.shouldLogin && st.error == [] && st.comment == [] && !st.commenting
  {
    DetailState(None, true, false, "", "", false)
  }

  const LoadError := "Failed to load post"
  const AddCommentError := "Failed to add comment"
  const DeleteCommentError := "Failed to delete comment"

  /** The page state after the loading effect, and the id `getPost` was asked for, if any. */
  datatype DetailLoad = DetailLoad(state: DetailState, fetched: Option<string>)

  /** The loading effect. Signed out: raise the login gate, stop loading, fetch nothing.
      Signed in without an id: lower the gate and return, still loading. Otherwise fetch
      the post; a failure shows "Failed to load post"; loading stops either way. */
  function Load(st: DetailState, user: Option<User>, id: Option<string>, reply: Reply<Post>): (r: DetailLoad)
    ensures user.None? ==> r.state == st.(shouldLogin := true, loading := false) && r.fetched.None?
    ensures user.Some? ==> !r.state.shouldLogin
    ensures user.Some? && !(id.Some? && Truthy(id.value)) ==> r.state == st.(shouldLogin := false) && r.fetched.None?
    ensures user.Some? && id.Some? && Truthy(id.value) ==>
              && r.fetched == id
              && !r.state.loading
              && (reply.Ok? ==> r.state == st.(shouldLogin := false, post := Some(reply.value), loading := false))
              && (reply.Failed? ==> r.state == st.(shouldLogin := false, error := LoadError, loading := false))
  {
    if user.None? then DetailLoad(st.(shouldLogin := true, loading := false), None)
    else if !(id.Some? && Truthy(id.value)) then DetailLoad(st.(shouldLogin := false), None)
    else
      var st' := st.(shouldLogin := false);
      match reply
      case Ok(p) => DetailLoad(st'.(post := Some(p), loading := false), id)
      case Failed => DetailLoad(st'.(error := LoadError, loading := false), id)
  }

  /** `post.comments?.length || 0`. */
  function CommentCount(post: Post): (n: nat)
    ensures post.comments.None? ==> n == 0
    ensures post.comments.Some? ==> n == |post.comments.value|
  {
    match post.comments
    case None => 0
    case Some(cs) => |cs|
  }

  /** `!post.comments || post.comments.length === 0`: the "No comments yet" notice. */
  predicate ShowsNoCommentsNotice(post: Post) {
    post.comments.None? || |post.comments.value| == 0
  }

  /** The notice shows exactly when the heading counts zero comments. */
  lemma NoCommentsNoticeIffZeroCount(post: Post)
    ensures ShowsNoCommentsNotice(post) <==> CommentCount(post) == 0
  {
  }

  /** A request to add a comment: post id and the comment box's text as typed. */
  datatype CommentRequest = CommentRequest(postId: string, content: string)

  /** The store, the page and the request made after a comment submission. */
  datatype CommentSubmit = CommentSubmit(store: BlogStore.BlogState, state: DetailState,
                                         sent: Option<CommentRequest>)

  /** `handleAddComment`. A blank comment or a missing id sends nothing. Otherwise the
      untrimmed text is sent; on success the box is cleared and the post is read again
      through `getPost`; a failure of either call shows "Failed to add comment". */
  function SubmitComment(store: BlogStore.BlogState, st: DetailState, id: Option<string>,
                         added: Reply<Comment>, reread: Reply<Post>): (r: CommentSubmit)
    ensures !HasText(st.comment) || !(id.Some? && Truthy(id.value)) ==>
              r == CommentSubmit(store, st, None)
    ensures HasText(st.comment) && id.Some? && Truthy(id.value) ==>
              && r.sent == Some(CommentRequest(id.value, st.comment))
              && !r.state.commenting
              && r.store == BlogStore.AddComment(store, id.value, added).state
              && (added.Failed? ==> r.state == st.(commenting := false, error := AddCommentError))
              && (added.Ok? ==> r.state.comment == [])
              && (added.Ok? && reread.Ok? ==>
                    r.state == st.(commenting := false, comment := "", post := Some(reread.value)))
              && (added.Ok? && reread.Failed? ==>
                    r.state == st.(commenting := false, comment := "", error := AddCommentError))
  {
    if !HasText(st.comment) || !(id.Some? && Truthy(id.value)) then CommentSubmit(store, st, None)
    else
      var step := BlogStore.AddComment(store, id.value, added);
      var sent := Some(CommentRequest(id.value, st.comment));
      var done := st.(commenting := false);
      if step.result.Failure? then CommentSubmit(step.state, done.(error := AddCommentError), sent)
      else
        var cleared := done.(comment := "");
        var read := BlogStore.GetPost(step.state, id.value, reread);
        match read.result
        case Success(p) => CommentSubmit(read.state, cleared.(post := Some(p)), sent)
        case Failure(_) => CommentSubmit(read.state, cleared.(error := AddCommentError), sent)
  }

  /** The store and the page after a comment deletion. */
  datatype CommentDelete = CommentDelete(store: BlogStore.BlogState, state: DetailState)

  /** `handleDeleteComment`: without an id nothing happens; otherwise delete, then read the
      post again; a failure of either call shows "Failed to delete comment". */
  function DeleteComment(store: BlogStore.BlogState, st: DetailState, id: Option<string>, commentId: string,
                         deleted: Reply<()>, reread: Reply<Post>): (r: CommentDelete)
    ensures !(id.Some? && Truthy(id.value)) ==> r == CommentDelete(store, st)
    ensures id.Some? && Truthy(id.value) ==>
              && r.store == BlogStore.DeleteComment(store, id.value, commentId, deleted).state
              && (deleted.Failed? ==> r.state == st.(error := DeleteCommentError))
              && (deleted.Ok? && reread.Ok? ==> r.state == st.(post := Some(reread.value)))
              && (deleted.Ok? && reread.Failed? ==> r.state == st.(error := DeleteCommentError))
  {
    if !(id.Some? && Truthy(id.value)) then CommentDelete(store, st)
    else
      var step := BlogStore.DeleteComment(store, id.value, commentId, deleted);
      if step.result.Failure? then CommentDelete(step.state, st.(error := DeleteCommentError))
      else
        var read := BlogStore.GetPost(step.state, id.value, reread);
        match read.result
        case Success(p) => CommentDelete(read.state, st.(post := Some(p)))
        case Failure(_) => CommentDelete(read.state, st.(error := DeleteCommentError))
  }

}

=== FILE: profile.dfy ===
/** The profile page: a form prefilled from the signed-in user, a simulated save, and the
    user's own posts. */
module ProfilePage {
  import opened Wrappers
  import opened Entities
  import Authorship

  datatype ProfileForm = ProfileForm(name: string, bio: string, email: string)

  /** The form as first rendered: three empty fields. */
  function EmptyForm(): (f: ProfileForm)
    ensures f.name == [] && f.bio == [] && f.email == []
  {
    ProfileForm("", "", "")
  }

  /** The effect run when `user` changes: copy name and email, and the bio or "" when it is
      missing; with nobody signed in the form keeps what it had. */
  function Prefill(user: Option<User>, form: ProfileForm): (r: ProfileForm)
    ensures user.None? ==> r == form
    ensures user.Some? ==> && r.name == user.value.name
                           && r.email == user.value.email
                           && (user.value.bio.Some? ==> r.bio == user.value.bio.value)
                           && (user.value.bio.None? ==> r.bio == "")
  {
    match user
    case None => form
    case Some(u) => ProfileForm(u.name, if u.bio.Some? then u.bio.value else "", u.email)
  }

  /** The banners and the busy flag of the form. */
  datatype SubmitState = SubmitState(loading: bool, error: string, success: string)

  const UpdatedMessage := "Profile updated successfully!"

  /** `handleSubmit`, which only waits and reports success: the banners are cleared first,
      and the end state shows the success message with `loading` off whatever came before. */
  function Submit(before: SubmitState): (r: SubmitState)
    ensures r == SubmitState(false, "", UpdatedMessage)
  {
    var started := SubmitState(true, "", "");
    started.(loading := false, success := UpdatedMessage)
  }

  /** What the page shows. */
  datatype ProfileScreen = PleaseLogIn | ProfileOf(user: User, posts: seq<Post>)

  /** With nobody signed in only the "Please log in" alert; otherwise the user and their posts. */
  function Screen(user: Option<User>, posts: seq<Post>): (s: ProfileScreen)
    ensures s.PleaseLogIn? <==> user.None?
    ensures s.ProfileOf? ==> s.user == user.value && s.posts == Authorship.UserPosts(posts, user)
  {
    match user
    case None => PleaseLogIn
    case Some(u) => ProfileOf(u, Authorship.UserPosts(posts, user))
  }

  /** The page never shows a post the user did not write. */
  lemma ProfileShowsOnlyOwnPosts(user: Option<User>, posts: seq<Post>)
    ensures var s := Screen(user, posts);
            s.ProfileOf? ==> forall i :: 0 <= i < |s.posts| ==> s.posts[i].author.id == s.user.id
  {
  }
}

=== FILE: query_string.dfy ===
/** How the home page reads `?search=` back out of a path: the URL parser strips the path's
    leading and trailing C0 controls and spaces and removes its tabs and line breaks, the
    router splits off the hash at the first `#`, the query follows the first `?`, and
    `URLSearchParams` splits it on `&`, cuts each pair at its first `=`, and decodes `+` as a
    space and `%XX` escapes. */
module QueryString {
  import opened Wrappers
  import Keyed

  /** The position of the first `c` in `s`, or `|s|` when there is none. */
  function IndexOf(s: string, c: char): (i: nat)
    ensures i <= |s|
    ensures forall j :: 0 <= j < i ==> s[j] != c
    ensures i < |s| ==> s[i] == c
  {
    if s == [] then 0 else if s[0] == c then 0 else 1 + IndexOf(s[1..], c)
  }

  /** `s.split(sep)`: the pieces between separators, at least one. */
  function Split(s: string, sep: char): (parts: seq<string>)
    ensures |parts| >= 1
    ensures forall k :: 0 <= k < |parts| ==> sep !in parts[k]
    decreases |s|
  {
    var i := IndexOf(s, sep);
    if i == |s| then [s] else [s[..i]] + Split(s[i + 1..], sep)
  }

  /** The pieces joined back with the separator. */
  function Join(parts: seq<string>, sep: char): string
    requires |parts| >= 1
  {
    if |parts| == 1 then parts[0] else parts[0] + [sep] + Join(parts[1..], sep)
  }

  /** Splitting loses nothing: joining the pieces gives the string back. */
  lemma {:induction false} JoinSplit(s: string, sep: char)
    ensures Join(Split(s, sep), sep) == s
    decreases |s|
  {
    var i := IndexOf(s, sep);
    if i < |s| {
      var rest := Split(s[i + 1..], sep);
      SplitAt(s, sep);
      JoinCons(s[..i], rest, sep);
      JoinSplit(s[i + 1..], sep);
      assert s == s[..i] + [sep] + s[i + 1..];
    }
  }

  /** A string with a separator splits into the piece before it and the split of the rest. */
  lemma SplitAt(s: string, sep: char)
    requires IndexOf(s, sep) < |s|
    ensures Split(s, sep) == [s[..IndexOf(s, sep)]] + Split(s[IndexOf(s, sep) + 1..], sep)
  {
  }

  /** Joining a first piece onto further pieces puts one separator between them. */
  lemma JoinCons(p: string, rest: seq<string>, sep: char)
    requires |rest| >= 1
    ensures Join([p] + rest, sep) == p + [sep] + Join(rest, sep)
  {
    assert ([p] + rest)[1..] == rest;
  }

  function HexDigit(c: char): Option<nat> {
    if '0' <= c <= '9' then Some(c as nat - '0' as nat)
    else if 'a' <= c <= 'f' then Some(c as nat - 'a' as nat + 10)
    else if 'A' <= c <= 'F' then Some(c as nat - 'A' as nat + 10)
    else None
  }

  /** The ASCII character `%XX` at the front of `s` denotes, if any. */
  function Escape(s: string): Option<char> {
    if |s| >= 3 && s[0] == '%' && HexDigit(s[1]).Some? && HexDigit(s[2]).Some?
       && HexDigit(s[1]).value * 16 + HexDigit(s[2]).value < 128
    then Some((HexDigit(s[1]).value * 16 + HexDigit(s[2]).value) as char)
    else None
  }

  /** `application/x-www-form-urlencoded` decoding of a name or value: `+` is a space, an ASCII
      `%XX` escape is its character, everything else stands for itself. */
  function Decode(s: string): string
    decreases |s|
  {
    if s == [] then []
    else if s[0] == '+' then [' '] + Decode(s[1..])
    else if Escape(s).Some? then [Escape(s).value] + Decode(s[3..])
    else [s[0]] + Decode(s[1..])
  }

  /** The value of the first pair named `name`; a pair without `=` has the empty value. */
  function FirstParam(pairs: seq<string>, name: string): Option<string> {
    if pairs == [] then None
    else
      var p := pairs[0];
      var i := IndexOf(p, '=');
      if p != [] && Decode(p[..i]) == name then Some(if i < |p| then Decode(p[i + 1..]) else "")
      else FirstParam(pairs[1..], name)
  }

  /** The query of a path: after the first `?` and before the first `#`. */
  function Query(path: string): string {
    var beforeHash := path[..IndexOf(path, '#')];
    var q := IndexOf(beforeHash, '?');
    if q < |beforeHash| then beforeHash[q + 1..] else ""
  }

  /** C0 controls and the space: what the URL parser strips from both ends of a URL. */
  predicate IsC0OrSpace(c: char) {
    c <= ' '
  }

  /** ASCII tab and newline: what the URL parser removes wherever they occur. */
  predicate IsTabOrNewline(c: char) {
    c == '\t' || c == '\n' || c == '\r'
  }

  /** `s` without its leading C0 controls and spaces. */
  function DropLeading(s: string): (r: string)
    ensures |r| <= |s| && r == s[|s| - |r|..]
    ensures forall i :: 0 <= i < |s| - |r| ==> IsC0OrSpace(s[i])
    ensures r != [] ==> !IsC0OrSpace(r[0])
  {
    if s != [] && IsC0OrSpace(s[0]) then DropLeading(s[1..]) else s
  }

  /** `s` without its trailing C0 controls and spaces. */
  function DropTrailing(s: string): (r: string)
    ensures |r| <= |s| && r == s[..|r|]
    ensures forall i :: |r| <= i < |s| ==> IsC0OrSpace(s[i])
    ensures r != [] ==> !IsC0OrSpace(r[|r| - 1])
  {
    if s != [] && IsC0OrSpace(s[|s| - 1]) then DropTrailing(s[..|s| - 1]) else s
  }

  /** What the URL parser makes of a path the router navigates to: the ends stripped of C0
      controls and spaces, then every tab and line break removed. */
  function Parsed(path: string): (u: string)
    ensures |u| <= |path|
    ensures forall i :: 0 <= i < |u| ==> !IsTabOrNewline(u[i])
  {
    Keyed.Remove(DropLeading(DropTrailing(path)), IsTabOrNewline, true)
  }

  /** `new URLSearchParams(location.search).get(name)` once the router has navigated to `path`. */
  function Param(path: string, name: string): Option<string> {
    FirstParam(Split(Query(Parsed(path)), '&'), name)
  }

  /** The characters an encoded value escapes: those the reader treats specially (`%`, `&`,
      `#`, `+`) and those the URL parser strips or removes (C0 controls and the space). */
  predicate IsSpecial(c: char) {
    IsC0OrSpace(c) || c == '%' || c == '&' || c == '#' || c == '+'
  }

  /** A parameter name that reads as itself: nothing special and no `=`. */
  predicate IsPlainName(name: string) {
    |name| > 0 && forall i :: 0 <= i < |name| ==> !IsSpecial(name[i]) && name[i] != '='
  }

  /** The upper-case hexadecimal digit for `n`. */
  function HexChar(n: nat): (c: char)
    requires n < 16
    ensures HexDigit(c) == Some(n)
    ensures !IsSpecial(c)
  {
    if n < 10 then ('0' as int + n) as char else ('A' as int + n - 10) as char
  }

  /** A special character becomes its `%XX` escape; any other stands for itself. */
  function EncodeChar(c: char): (r: string)
    ensures |r| > 0
    ensures forall i :: 0 <= i < |r| ==> r[i] == '%' || !IsSpecial(r[i])
  {
    if IsSpecial(c) then ['%', HexChar(c as int / 16), HexChar(c as int % 16)] else [c]
  }

  /** A value made safe to put after `name=` in a path. */
  function Encode(s: string): (r: string)
    ensures '&' !in r && '#' !in r
    ensures forall i :: 0 <= i < |r| ==> r[i] == '%' || !IsSpecial(r[i])
  {
    if s == [] then [] else EncodeChar(s[0]) + Encode(s[1..])
  }

  lemma DecodeEncodedChar(c: char, rest: string)
    ensures Decode(EncodeChar(c) + rest) == [c] + Decode(rest)
  {
    var e := EncodeChar(c) + rest;
    if IsSpecial(c) {
      assert e[0] == '%' && e[3..] == rest;
      assert HexDigit(e[1]).value * 16 + HexDigit(e[2]).value == c as int;
      assert Escape(e) == Some(c);
    } else {
      assert e[0] == c && e[1..] == rest;
    }
  }

  /** Decoding undoes encoding, for every string. */
  lemma {:induction false} DecodeEncode(s: string)
    ensures Decode(Encode(s)) == s
  {
    if s != [] {
      DecodeEncodedChar(s[0], Encode(s[1..]));
      DecodeEncode(s[1..]);
      assert s == [s[0]] + s[1..];
    }
  }

  /** A `%` written for a character starts a well-formed escape. */
  lemma EncodeCharPercent(c: char, rest: string, i: nat)
    requires i < |EncodeChar(c)| && EncodeChar(c)[i] == '%'
    ensures Escape((EncodeChar(c) + rest)[i..]).Some?
  {
    var e := EncodeChar(c) + rest;
    if IsSpecial(c) {
      assert i == 0 && e[i..] == e;
      assert HexDigit(e[1]).value * 16 + HexDigit(e[2]).value == c as int;
    }
  }

  /** Every `%` in an encoding starts a well-formed escape, so no `%` stands for itself. */
  lemma {:induction false} EncodedPercentsEscape(s: string)
    ensures forall i :: 0 <= i < |Encode(s)| && Encode(s)[i] == '%' ==> Escape(Encode(s)[i..]).Some?
  {
    if s != [] {
      var head, tail := EncodeChar(s[0]), Encode(s[1..]);
      EncodedPercentsEscape(s[1..]);
      assert Encode(s) == head + tail;
      forall i | 0 <= i < |head + tail| && (head + tail)[i] == '%'
        ensures Escape((head + tail)[i..]).Some?
      {
        if i < |head| {
          EncodeCharPercent(s[0], tail, i);
        } else {
          assert (head + tail)[i..] == tail[i - |head|..];
          assert tail[i - |head|] == '%';
        }
      }
    }
  }

  /** Searching past a prefix that lacks the character. */
  lemma {:induction false} IndexOfPastPrefix(a: string, b: string, c: char)
    requires c !in a
    ensures IndexOf(a + b, c) == |a| + IndexOf(b, c)
    decreases |a|
  {
    if a != [] {
      assert a[0] != c && c !in a[1..];
      assert (a + b)[0] == a[0] && (a + b)[1..] == a[1..] + b;
      IndexOfPastPrefix(a[1..], b, c);
      assert IndexOf(a + b, c) == 1 + IndexOf(a[1..] + b, c);
    } else {
      assert a + b == b;
    }
  }

  /** Trailing C0 controls and spaces after a part that does not end in one come from the rest. */
  lemma {:induction false} DropTrailingAfter(a: string, b: string)
    requires a != [] && !IsC0OrSpace(a[|a| - 1])
    ensures DropTrailing(a + b) == a + DropTrailing(b)
    decreases |b|
  {
    if b == [] {
      assert a + b == a;
    } else if IsC0OrSpace(b[|b| - 1]) {
      assert (a + b)[..|a + b| - 1] == a + b[..|b| - 1];
      DropTrailingAfter(a, b[..|b| - 1]);
    }
  }

  /** The parser leaves a prefix alone when it begins and ends with neither a C0 control nor a
      space and holds no tab or line break: only the rest loses its trailing blanks and breaks. */
  lemma ParsedAfterPrefix(pre: string, rest: string)
    requires pre != [] && !IsC0OrSpace(pre[0]) && !IsC0OrSpace(pre[|pre| - 1])
    requires forall i :: 0 <= i < |pre| ==> !IsTabOrNewline(pre[i])
    ensures Parsed(pre + rest) == pre + Keyed.Remove(DropTrailing(rest), IsTabOrNewline, true)
  {
    DropTrailingAfter(pre, rest);
    var d := pre + DropTrailing(rest);
    assert d[0] == pre[0];
    assert DropLeading(d) == d;
    Keyed.RemoveConcat(pre, DropTrailing(rest), IsTabOrNewline, true);
    Keyed.RemoveAbsent(pre, IsTabOrNewline, true);
  }

  /** The prefix `/?name=` of a plain name passes through the parser untouched. */
  lemma PlainPrefix(name: string)
    requires IsPlainName(name)
    ensures var pre := "/?" + name + "=";
            && pre[0] == '/' && pre[|pre| - 1] == '='
            && (forall i :: 0 <= i < |pre| ==> !IsTabOrNewline(pre[i]))
            && '#' !in pre
  {
    var pre := "/?" + name + "=";
    forall i | 0 <= i < |pre|
      ensures !IsTabOrNewline(pre[i]) && pre[i] != '#'
    {
      if 2 <= i < |pre| - 1 {
        assert pre[i] == name[i - 2];
      }
    }
  }

  /** Everything from the first `#` on is the hash, not the query. */
  lemma QueryBeforeHash(path: string)
    ensures Query(path) == Query(path[..IndexOf(path, '#')])
  {
    var b := path[..IndexOf(path, '#')];
    assert '#' !in b;
    assert IndexOf(b, '#') == |b|;
    assert b[..|b|] == b;
  }

  /** The query of `/?q` is `q` when `q` has no `#`. */
  lemma QueryOfPath(q: string)
    requires '#' !in q
    ensures Query("/?" + q) == q
  {
    var path := "/?" + q;
    IndexOfPastPrefix("/?", q, '#');
    assert IndexOf(q, '#') == |q|;
    assert path[..|path|] == path;
    assert IndexOf(path, '?') == 1;
    assert path[2..] == q;
  }

  /** The query of `/?name=value` is the pair up to the value's first `#`. */
  lemma QueryOfPair(name: string, value: string)
    requires IsPlainName(name)
    ensures Query("/?" + name + "=" + value) == name + "=" + value[..IndexOf(value, '#')]
  {
    var pair := name + "=" + value[..IndexOf(value, '#')];
    HashOfPair(name, value);
    QueryBeforeHash("/?" + name + "=" + value);
    QueryOfPath(pair);
  }

  /** In `/?name=value` the hash begins at the value's first `#`, and the part before it has none. */
  lemma HashOfPair(name: string, value: string)
    requires IsPlainName(name)
    ensures var path := "/?" + name + "=" + value;
            var pair := name + "=" + value[..IndexOf(value, '#')];
            path[..IndexOf(path, '#')] == "/?" + pair && '#' !in pair
  {
    var pre := "/?" + name + "=";
    PlainPrefix(name);
    IndexOfPastPrefix(pre, value, '#');
    var h := IndexOf(value, '#');
    assert (pre + value)[..|pre| + h] == pre + value[..h];
    assert '#' !in name + "=";
    assert '#' !in value[..h];
  }

  /** A leading pair `name=v` answers for `name`. */
  lemma FirstPairAnswers(name: string, v: string, pairs: seq<string>)
    requires IsPlainName(name)
    requires |pairs| >= 1 && pairs[0] == name + "=" + v
    ensures FirstParam(pairs, name) == Some(Decode(v))
  {
    var p := name + "=" + v;
    assert '=' !in name;
    assert p == name + ("=" + v);
    IndexOfPastPrefix(name, "=" + v, '=');
    assert ("=" + v)[0] == '=';
    assert IndexOf(p, '=') == |name|;
    assert p[..|name|] == name && p[|name| + 1..] == v;
    DecodePlain(name);
  }

  /** The first piece of a split is everything before the first separator. */
  lemma SplitHead(s: string, sep: char)
    ensures Split(s, sep)[0] == s[..IndexOf(s, sep)]
  {
  }

  /** The first `&`-piece of `name=value` stops where the value's first `&` is. */
  lemma FirstPieceOfPair(name: string, value: string)
    requires IsPlainName(name)
    ensures Split(name + "=" + value, '&')[0] == name + "=" + value[..IndexOf(value, '&')]
  {
    var pair := name + "=" + value;
    assert '&' !in name + "=";
    IndexOfPastPrefix(name + "=", value, '&');
    SplitHead(pair, '&');
    var cut := IndexOf(value, '&');
    assert pair[..|name| + 1 + cut] == name + "=" + value[..cut];
  }

  /** What a value put after `name=` unencoded reads back as: the URL parser drops its trailing
      C0 controls and spaces and all its tabs and line breaks, the hash begins at its first `#`,
      the pair ends at its first `&`, and what is left is decoded. */
  function ReadBack(value: string): string {
    var v := Keyed.Remove(DropTrailing(value), IsTabOrNewline, true);
    var w := v[..IndexOf(v, '#')];
    Decode(w[..IndexOf(w, '&')])
  }

  /** A value with no blank, `#`, `+` or `%` reads back as its part before the first `&`. */
  lemma ReadBackOfPlain(value: string)
    requires forall i :: 0 <= i < |value| ==>
               !IsC0OrSpace(value[i]) && value[i] != '#' && value[i] != '+' && value[i] != '%'
    ensures ReadBack(value) == value[..IndexOf(value, '&')]
  {
    ReadBackOfBlankFree(value);
    CutDecodesToItself(value);
  }

  /** A value without blanks or `#` is only cut at its first `&` and decoded. */
  lemma ReadBackOfBlankFree(value: string)
    requires forall i :: 0 <= i < |value| ==> !IsC0OrSpace(value[i]) && value[i] != '#'
    ensures ReadBack(value) == Decode(value[..IndexOf(value, '&')])
  {
    NoBlanksKeepEnd(value);
    NoBlanksKeepBreaks(value);
    ReadBackUnstripped(value);
  }

  /** The part before the first `&` of a value without `+` or `%` decodes to itself. */
  lemma CutDecodesToItself(value: string)
    requires forall i :: 0 <= i < |value| ==> value[i] != '+' && value[i] != '%'
    ensures Decode(value[..IndexOf(value, '&')]) == value[..IndexOf(value, '&')]
  {
    DecodePlain(value[..IndexOf(value, '&')]);
  }

  /** Without blanks there is nothing to strip at the end. */
  lemma NoBlanksKeepEnd(s: string)
    requires forall i :: 0 <= i < |s| ==> !IsC0OrSpace(s[i])
    ensures DropTrailing(s) == s
  {
    if s != [] {
      assert !IsC0OrSpace(s[|s| - 1]);
    }
  }

  /** Without blanks there is no tab or line break to remove. */
  lemma NoBlanksKeepBreaks(s: string)
    requires forall i :: 0 <= i < |s| ==> !IsC0OrSpace(s[i])
    ensures Keyed.Remove(s, IsTabOrNewline, true) == s
  {
    assert !Keyed.HasKey(s, IsTabOrNewline, true);
    Keyed.RemoveAbsent(s, IsTabOrNewline, true);
  }

  /** A value the parser leaves alone and that has no `#` is only cut at `&` and decoded. */
  lemma ReadBackUnstripped(value: string)
    requires DropTrailing(value) == value
    requires Keyed.Remove(value, IsTabOrNewline, true) == value
    requires '#' !in value
    ensures ReadBack(value) == Decode(value[..IndexOf(value, '&')])
  {
    assert IndexOf(value, '#') == |value|;
    assert value[..|value|] == value;
  }

  /** A path `/?name=<raw value>` reads back the value as `ReadBack` describes, for any value. */
  lemma ParamOfRawValue(name: string, value: string)
    requires IsPlainName(name)
    ensures Param("/?" + name + "=" + value, name) == Some(ReadBack(value))
  {
    var pre := "/?" + name + "=";
    PlainPrefix(name);
    ParsedAfterPrefix(pre, value);
    var v := Keyed.Remove(DropTrailing(value), IsTabOrNewline, true);
    assert Parsed(pre + value) == "/?" + name + "=" + v;
    QueryOfPair(name, v);
    var w := v[..IndexOf(v, '#')];
    FirstPieceOfPair(name, w);
    FirstPairAnswers(name, w[..IndexOf(w, '&')], Split(name + "=" + w, '&'));
  }

  /** An encoded value has nothing the parser strips and no `#` or `&`, so it reads back whole. */
  lemma EncodedReadsBack(value: string)
    ensures ReadBack(Encode(value)) == value
  {
    var e := Encode(value);
    assert forall i :: 0 <= i < |e| ==> !IsC0OrSpace(e[i]) && e[i] != '#';
    ReadBackOfBlankFree(e);
    assert e[..IndexOf(e, '&')] == e;
    DecodeEncode(value);
  }

  /** A path `/?name=<encoded value>` reads back exactly the value, for any plain name. */
  lemma ParamOfEncoded(name: string, value: string)
    requires IsPlainName(name)
    ensures Param("/?" + name + "=" + Encode(value), name) == Some(value)
  {
    ParamOfRawValue(name, Encode(value));
    EncodedReadsBack(value);
  }

  /** A string without `+` or `%` decodes to itself. */
  lemma {:induction false} DecodePlain(s: string)
    requires forall i :: 0 <= i < |s| ==> s[i] != '+' && s[i] != '%'
    ensures Decode(s) == s
    decreases |s|
  {
    if s != [] {
      DecodePlain(s[1..]);
      assert s == [s[0]] + s[1..];
    }
  }
}

=== FILE: wrappers.dfy ===
/** Optional values, server replies and the outcome of a store operation. */
module Wrappers {

  /** A value that may be absent: TypeScript's `T | null`, `T | undefined` or an optional field. */
  datatype Option<T> = None | Some(value: T)

  /** What an HTTP request resolved to: the response body, or a rejection
      (network failure or a non-2xx status, which axios turns into an exception). */
  datatype Reply<T> = Ok(value: T) | Failed

  /** What an operation returns to its caller: a value, or a thrown `Error` carrying a fixed message. */
  datatype Result<T> = Success(value: T) | Failure(message: string)
}
